=== FILE: README.md ===
# Tic-tac-toe matchmaking server: a Dafny model

This project models the core of a two-player tic-tac-toe server and proves
properties of that model. Clients connect over websockets with a username
and join a waiting queue. The server pairs them two at a time, and a coin
flip decides who moves first. Both players of a room share one game. The
server checks whose turn it is, tells both players the new board after
every accepted move, and tears the room down when a player leaves or
disconnects. A new game starts when both players ask for a replay.

The modules follow the repository's files:

- `Grid` (`grid.dfy`): the 3×3 board and the line logic. Both engines carry
  the same code, so it is written once here, generic in the cell type. It
  covers the ordered line scan, the "board full" scan with its early breaks,
  a reference definition of "owns a line", and cell counts.
- `MarkEngine` (`mark_engine.dfy`): the engine the server uses,
  `src/backend/src/tictactoe.ts`. Cells hold X or O, and X moves first.
- `PlayerEngine` (`player_engine.dfy`): the engine of the local
  same-screen mode, `frontend/src/routes/local/tictactoe.ts`. Cells hold
  players. Player ids come from a shared counter, and a coin flip picks the
  first mover.
- `Api` (`api.dfy`): the message types of `src/api.ts`, as decoded values.
- `Matchmaker` (`matchmaker.dfy`): the coordinator of `backend/src/index.ts`.
  It covers the username check, the queue, FIFO pairing, the start
  notifications, turn validation, leave and disconnect teardown, replay
  consent, and message dispatch.
- `MatchmakerProperties` (`matchmaker_properties.dfy`): properties that
  relate several events. These are the pairing order, the queue bound in
  every reachable state, how many games a burst of joins starts, the
  hand-over of the turn, replay consent, and two quirks of the code as
  written.
- `DraftRoutes` (`draft_routes.dfy`): the draft Elysia coordinator of
  `backend/src/multiplayerRoutes.ts`. Accounts are created per socket, and
  users wait on a queue that is popped from the end.
- `ClientState` (`client_state.dfy`): the browser's reducer
  (`src/frontend/src/lib/webSocketService.ts`) over the `GameState` record
  of `frontend/src/lib/gameStore.ts`.
- `Registration` (`registration.dfy`): the user counter of
  `backend/src/auth/auth.controllers.ts`, over the store of
  `backend/src/utils/store.ts`.
- `Wrappers` (`wrappers.dfy`): `Option` and `Result`.

The server's mutable objects become immutable values. In `Matchmaker`,
users are keyed by connection id, rooms name the opponent by id and the
shared game by a game id, and each handler returns the new state together
with the messages it sends, as (recipient, message) pairs. Every
`Math.random() < 0.5` is a boolean parameter (a "coin"). Event `n` of a
run draws from `coins(n)`, and draw `k` within one event is `coin(k)`.
Nothing is assumed about how the coins fall.

Some behaviour of the code is worth calling out:

- A `joinQueue` from a user who is already queued or already in a room is
  appended anyway. Joining twice on an empty queue pairs the user with
  itself (`MatchmakerProperties.JoiningTwicePairsWithSelf`).
- Leaving sends the opponent the same `opponentDisconnected` message as a
  disconnect does.
- A replay does not require the game to be over. There is no new coin flip
  either: the player whose request completes the agreement plays X.
- A missing or empty `type` is answered `invalidMessage`. Any other
  unrecognised `type` is ignored without a reply.
- A turn in a room whose opponent no longer has a room is still applied
  to the shared game. Only the sender is told, with `serverError`. This
  happens when the opponent has since been paired again and either of its
  rooms was torn down. A leave or disconnect from a stale room clears the
  opponent's new room without telling its new partner.
- Disconnecting removes only the first queue entry of the user. No run from
  start-up ever has a user queued twice between events, because the queue
  never holds more than one user (`MatchmakerProperties.ReachableFromStartUp`).
  So this shows only in a state built by hand.

## Model

| member | source | states |
|---|---|---|
| Grid.EmptyBoard | src/backend/src/tictactoe.ts:17-22 | the constructor's board has all nine cells empty |
| Grid.Set | src/backend/src/tictactoe.ts:101 | writing a cell sets exactly that cell and leaves the other eight unchanged |
| Grid.ScanFull | src/backend/src/tictactoe.ts:67-79 | the nested scan with its early breaks reports "full" exactly when every cell is occupied |
| Grid.CellOf | src/backend/src/tictactoe.ts:36-65 | every cell the line checks read (rows, columns, both diagonals) is on the board |
| Grid.LineOwner | src/backend/src/tictactoe.ts:38-40 | one line check reports a value only if all three cells hold it, and reports nothing when no value fills the line |
| Grid.FirstOwner | src/backend/src/tictactoe.ts:36-65 | the first-match scan over a list of lines reports a value owning one of them, or nothing when no line of the list is complete |
| Grid.CheckOrderCoversAllLines | src/backend/src/tictactoe.ts:36-65 | the scan order tests each of the eight lines of the board |
| Grid.WinnerMatchesLines | src/backend/src/tictactoe.ts:35-65 | the ordered scan agrees with the reference definition: a reported winner owns a line, and there is no winner exactly when nobody owns a line |
| Grid.SoleOwnerWins | src/backend/src/tictactoe.ts:35-65 | when exactly one value owns lines, the scan reports it, whatever the order of the checks |
| Grid.WriteCompletesOnlyWriter | src/backend/src/tictactoe.ts:101 | writing v into a cell can complete a line only for v; any other owner already owned a line before the write |
| Grid.CountInUpdate | src/backend/src/tictactoe.ts:101 | overwriting one cell of a row changes the row's count of v by what left and what arrived |
| Grid.CountAfterSet | src/backend/src/tictactoe.ts:101 | writing a cell changes the board's count of v by what left and what arrived |
| Grid.EmptyBoardCounts | src/backend/src/tictactoe.ts:17-22 | the empty board holds no cell of any value |
| MarkEngine.NewGame | src/backend/src/tictactoe.ts:17-25 | a new game has an empty board and X to move |
| MarkEngine.Status | src/backend/src/tictactoe.ts:35-86 | a reported win belongs to a mark owning a line, and a sole owner is the reported winner; draw exactly when no line is owned and the board is full; in progress exactly when no line is owned and a cell is free |
| MarkEngine.PlayTurn | src/backend/src/tictactoe.ts:88-105 | a turn succeeds exactly when (x, y) is on the board and free and the game is in progress. Otherwise it fails without change: a missing row raises a type error, a finished game is refused, and a bad column or taken cell is an invalid position. On success only (x, y) changes, it takes the mover's mark, the other mark moves next, and the status of the new board is returned |
| MarkEngine.NewGameConsistent | src/backend/src/tictactoe.ts:17-25 | the new game satisfies the alternation invariant (equal counts with X to move, no line owned) |
| MarkEngine.PlayTurnKeepsConsistent | src/backend/src/tictactoe.ts:88-105 | an accepted turn keeps X one move ahead of O or level (matching who moves next), and never lets both marks own a line |
| MarkEngine.RunKeepsConsistent | src/backend/src/tictactoe.ts:88-105 | any sequence of turns, accepted or rejected, keeps the invariant |
| MarkEngine.ReachableGames | src/backend/src/tictactoe.ts:17-105 | in every game reachable from the constructor, X has as many marks as O when X is to move and one more otherwise, and a mark's win is reported exactly when it owns a line |
| PlayerEngine.NewPlayer | frontend/src/routes/local/tictactoe.ts:23-27 | the new player's id is above the old counter value and at most the new one, so it differs from every id handed out before; the name is kept |
| PlayerEngine.SelectRandomPlayer | frontend/src/routes/local/tictactoe.ts:126-129 | heads picks player 1 and tails picks player 2 |
| PlayerEngine.NewGame | frontend/src/routes/local/tictactoe.ts:36-47 | empty board, two players with distinct fresh ids and the given names, and the coin decides which of them moves first. The names `"Player 1"` and `"Player 2"` that the constructor uses by default are passed as arguments |
| PlayerEngine.Status | frontend/src/routes/local/tictactoe.ts:53-104 | forfeits are never reported; player 1's win means player 1 owns a line; player 2's win means some other player owns one; a sole owner's win is reported as player 1's or player 2's according to who it is; draw and in-progress exactly as for the mark engine |
| PlayerEngine.PlayTurn | frontend/src/routes/local/tictactoe.ts:106-124 | the same acceptance and failure paths as the mark engine; on success only (x, y) changes and takes the current player, the players are kept, and the other player moves next |
| PlayerEngine.NewGameConsistent | frontend/src/routes/local/tictactoe.ts:36-47 | a new game satisfies the invariant (two distinct players, one of them to move, only they on the board, balanced counts, no line owned) |
| PlayerEngine.LineOwnersArePlayers | frontend/src/routes/local/tictactoe.ts:53-83 | on a consistent board only the two players can own a line |
| PlayerEngine.PlayTurnKeepsConsistent | frontend/src/routes/local/tictactoe.ts:106-124 | an accepted turn keeps the invariant |
| PlayerEngine.RunKeepsConsistent | frontend/src/routes/local/tictactoe.ts:106-124 | any sequence of turns keeps the invariant |
| PlayerEngine.ReachableWins | frontend/src/routes/local/tictactoe.ts:36-124 | in every reachable game, player 1's win is reported exactly when player 1 owns a line, and player 2's exactly when player 2 does |
| Api.ParseClientMessageType | src/api.ts:2-7 | a recognised `type` string is the wire tag of the request kind it yields; an unrecognised one is no kind's tag |
| Api.ParseTagRoundTrip | src/api.ts:2-7 | every request kind is recognised from its own tag |
| Matchmaker.InitialValid | backend/src/index.ts:30 | the start-up state (no users, empty queue) satisfies referential integrity |
| Matchmaker.Utf16Length | backend/src/index.ts:126-128 | the `length` of a string as JavaScript counts it: between one and two code units per character, exactly one per character when all lie in the Basic Multilingual Plane and exactly two when none does |
| Matchmaker.IsValidUsername | backend/src/index.ts:126-128 | a username is accepted exactly when it is present and 2 to 16 UTF-16 code units long; an accepted name has 1 to 16 characters |
| Matchmaker.BmpUsername | backend/src/index.ts:126-128 | for names inside the Basic Multilingual Plane the check is 2 to 16 characters |
| Matchmaker.AstralUsernames | backend/src/index.ts:126-128 | a character at or above U+10000 counts twice: one such character alone is a valid name, eight are accepted and nine are refused |
| Matchmaker.HandleTicTacToeRequest | backend/src/index.ts:104-124 | the upgrade succeeds exactly when the username is valid and the transport upgrades. An invalid name is answered 400, and no session is created on failure. On success exactly one user is added, with the given name and no room, and nothing else changes |
| Matchmaker.InitializeGame | backend/src/index.ts:138-181 | one new empty game under a fresh id; player 1 on X and player 2 on O, each naming the other, no replay flag; other users, the queue and existing games are untouched; the X player is told it is its turn and the O player that it is not, each with the other's name |
| Matchmaker.TryPairing | backend/src/index.ts:130-136 | pairing consumes the queue two at a time. An even queue ends empty, and an odd one keeps only its last user. One game starts per pair and each pair gets two messages. Referential integrity is kept |
| Matchmaker.PairFront | backend/src/index.ts:131-134 | one pairing step removes the front two, starts one game, and sends the first message to the user the coin put on X and the second to the one on O |
| Matchmaker.TryPairingFrame | backend/src/index.ts:130-154 | pairing renames nobody, adds or removes no user, keeps existing games, and leaves users who were not queued untouched |
| Matchmaker.TryPairingRecipients | backend/src/index.ts:130-181 | every message sent while pairing goes to a user who was in the queue |
| Matchmaker.EnqueuePlayer | backend/src/index.ts:77-81 | the sender is appended whatever its state. If the queue was even, the sender waits alone afterwards; if it was odd, the queue empties and a game starts. Users and existing games are kept |
| Matchmaker.EnqueueOnShortQueue | backend/src/index.ts:77-81 | on a queue of at most one user, a join leaves at most one waiting, and the users left waiting plus two per new game equal those who waited plus the joiner |
| Matchmaker.HandlePlayTurn | backend/src/index.ts:183-201 | a refused turn changes nothing and answers only the sender, with at most one error: `invalidMessage` without a room, nothing when the coordinates are missing, `notYourTurn` when the other mark is to move, `invalidCoordinates` when the engine refuses. An accepted turn replaces only the shared game. If the opponent still has a room, the sender and then the opponent get a `gameUpdate`, the sender's carrying the new board. If not, the move is still applied to the shared game and only the sender is told, with `serverError` |
| Matchmaker.UpdatePlayersAfterTurn | backend/src/index.ts:203-238 | without a room for the sender, or for the opponent, only the sender hears back, with `serverError`. Otherwise two `gameUpdate`s go out, to the sender and then the opponent. Both carry the status and board of the sender's game. Each carries the receiver's own mark, whether that mark is to move, and the other player's name |
| Matchmaker.Teardown | backend/src/index.ts:83-90 | without a room nothing happens; otherwise the opponent alone is sent `opponentDisconnected` and both rooms are cleared; everyone else, the queue and the games are untouched |
| Matchmaker.HandleLeaveGame | backend/src/index.ts:83-90 | without a room nothing happens; otherwise the opponent alone is told `opponentDisconnected` and both rooms are cleared; the queue and the games stay as they were |
| Matchmaker.FindIndex | backend/src/index.ts:252 | the index found holds the id and no earlier entry does; no index means the id is not queued |
| Matchmaker.RemoveFirst | backend/src/index.ts:252-255 | only the first entry with the id is removed; the queue loses exactly one copy of the id, or is unchanged when it was not queued |
| Matchmaker.HandlePlayerDisconnection | backend/src/index.ts:244-256 | a disconnect is a leave followed by removing the user's first queue entry |
| Matchmaker.HandleReplayGame | backend/src/index.ts:92-102 | without a room nothing happens. A lone request only sets the sender's flag and tells nobody. When the opponent has asked too, one fresh game starts with the sender on X and the opponent on O, both are notified, and nobody else is touched |
| Matchmaker.OnMessage | backend/src/index.ts:48-69 | a missing or empty `type` is answered `invalidMessage` with no change; any other unrecognised `type` is ignored; the four requests go to their handlers |
| Matchmaker.OnClose | backend/src/index.ts:71-73 | a close tells the opponent, if any, that the user disconnected, clears both rooms, and drops exactly one queue entry of the user (none when it was not queued) |
| MatchmakerProperties.PairingPairsInOrder | backend/src/index.ts:130-154 | with no duplicate in the queue, the users at positions 2i and 2i+1 share the i-th new game, which is empty. The user who waited longer plays O exactly when draw i swapped the pair |
| MatchmakerProperties.PairingStep | backend/src/index.ts:131-135 | a pairing run is its first pair followed by the run over the rest of the queue, which still has no duplicates |
| MatchmakerProperties.FirstPair | backend/src/index.ts:131-134 | the front pair gets the first new game, and the rest of the run leaves them alone |
| MatchmakerProperties.LaterPair | backend/src/index.ts:131-135 | pair i of a run is pair i - 1 of the run that starts after the first pair |
| MatchmakerProperties.Apply | backend/src/index.ts:43-73 | every connection, message or close event keeps referential integrity |
| MatchmakerProperties.ApplyKeepsQueueShort | backend/src/index.ts:48-81 | no event leaves more than one user waiting when at most one waited before |
| MatchmakerProperties.ReachableStates | backend/src/index.ts:30-256 | from any state with integrity and at most one user waiting, every sequence of events keeps both |
| MatchmakerProperties.ReachableFromStartUp | backend/src/index.ts:30-256 | in every state the server reaches from start-up, all references resolve and at most one user waits |
| MatchmakerProperties.JoinsFillRooms | backend/src/index.ts:77-81 | after a burst of joins on a queue of at most one user, the users left waiting plus two per new game equal those who waited plus those who joined, and at most one waits |
| MatchmakerProperties.JoinStep | backend/src/index.ts:77-81 | the first join of a burst keeps the queue short and counts one more user |
| MatchmakerProperties.JoinsParity | backend/src/index.ts:77-81 | N joins on a queue of q ≤ 1 users, the only queues reachable from start-up, leave (q + N) mod 2 waiting and start (q + N) div 2 games |
| MatchmakerProperties.TurnPassesToOpponent | backend/src/index.ts:183-238 | after an accepted turn in a proper room, both players see the same board and status, the mover is told to wait and the opponent to play, the mover's mark is in the cell, and the room pair is unchanged |
| MatchmakerProperties.ReplayNeedsBothPlayers | backend/src/index.ts:92-102 | one request starts nothing and tells nobody; the opponent's request then starts exactly one fresh game with that second requester on X, and both are notified |
| MatchmakerProperties.JoiningTwicePairsWithSelf | backend/src/index.ts:77-81 | a user who joins twice on an empty queue is paired with itself and ends in a room naming itself |
| MatchmakerProperties.DisconnectRemovesOneEntry | backend/src/index.ts:252-255 | a user queued twice keeps one queue entry after disconnecting; no run from start-up reaches such a queue between events |
| DraftRoutes.GetUserById | backend/src/multiplayerRoutes.ts:139-141 | the result is the first user created on the socket, and none exactly when no user was |
| DraftRoutes.Reject | backend/src/multiplayerRoutes.ts:59-62 | an error reply goes to the sender and the state is unchanged |
| DraftRoutes.CreateAccount | backend/src/multiplayerRoutes.ts:69-80 | without a payload nothing happens; a falsy payload username is refused; otherwise a user with the message's own `username`, not in a game, is appended, and the sender is sent "its working" and its topic is sent "accountCreated" |
| DraftRoutes.OpenRoom | backend/src/multiplayerRoutes.ts:100-109 | a room over the two users is appended; both are marked in game and point at it; nobody else changes; each is told the other's name |
| DraftRoutes.JoinQueue | backend/src/multiplayerRoutes.ts:82-113 | an unknown socket and a user already in game are refused. On an empty queue the user waits. Otherwise the last waiting user and the joiner are popped into a new room, the joiner as `user1`, and each is sent the other's name |
| DraftRoutes.OnMessage | backend/src/multiplayerRoutes.ts:58-134 | missing data, or a missing or empty `type`, gives "Invalid data"; `createAccount` and `joinQueue` go to their handlers; an unknown type gives "Unknown message type" |
| DraftRoutes.OnMessageKeepsWaiting | backend/src/multiplayerRoutes.ts:58-134 | every message keeps at most one user waiting and that user out of games |
| DraftRoutes.CreateAccountKeepsWaiting | backend/src/multiplayerRoutes.ts:69-80 | account creation keeps at most one user waiting and that user out of games |
| DraftRoutes.JoinQueueKeepsWaiting | backend/src/multiplayerRoutes.ts:82-113 | a join keeps at most one user waiting and that user out of games |
| DraftRoutes.Serve | backend/src/multiplayerRoutes.ts:46-48 | every sequence of messages keeps all stored positions valid |
| DraftRoutes.ServeKeepsWaiting | backend/src/multiplayerRoutes.ts:58-134 | every sequence of messages keeps at most one user waiting and out of games |
| DraftRoutes.ReachableStatesWait | backend/src/multiplayerRoutes.ts:46-134 | from module load on, positions stay valid, at most one user waits, and no waiting user is in a game |
| DraftRoutes.CreatedAccountIsFound | backend/src/multiplayerRoutes.ts:75 | after an account is created, the socket's user is found: the earlier one if the socket already had one, otherwise the new one |
| DraftRoutes.FirstMatchAfterAppend | backend/src/multiplayerRoutes.ts:139-141 | appending a user for an id changes the lookup only when the id had no user before |
| DraftRoutes.TwoJoinsShareRoom | backend/src/multiplayerRoutes.ts:95-109 | two users joining in turn on an empty queue share one new room, the second joiner as `user1`, and each is told the other's name |
| ClientState.OnOpen | src/frontend/src/lib/webSocketService.ts:13-15 | opening sets `inQueue` and changes nothing else |
| ClientState.OnError | src/frontend/src/lib/webSocketService.ts:17-20 | an error clears `inQueue` and `inGame` and changes nothing else |
| ClientState.Process | src/frontend/src/lib/webSocketService.ts:51-92 | a game start with its three keys resets the record to the initial one, in game, with the names and mark; a score update changes only the scores; a game over sets only the over flag and the squares; any other message leaves the record unchanged |
| ClientState.ProcessIdempotent | src/frontend/src/lib/webSocketService.ts:51-92 | receiving a message twice is the same as receiving it once |
| ClientState.GameStartForgetsPast | src/frontend/src/lib/webSocketService.ts:55-65 | the record after a game start does not depend on the record before it, and the game is neither queued nor over |
| ClientState.ErrorThenOpen | src/frontend/src/lib/webSocketService.ts:13-20 | reopening after an error queues the player but not in a game; an open followed by an error is the same as the error alone |
| ClientState.ServerMessagesIgnored | src/frontend/src/lib/webSocketService.ts:54-90 | none of the message types the game server sends is one the reducer acts on |
| Registration.RegisterUser | backend/src/auth/auth.controllers.ts:3-12 | the new record takes the counter's value as id and keeps the name; the counter goes up by one and the record is added to the set |
| Registration.InitialCounted | backend/src/utils/store.ts:7-11 | the initial store satisfies the counter invariant |
| Registration.RegisterKeepsCounted | backend/src/auth/auth.controllers.ts:3-12 | a registration keeps the invariant, and the new record is not already stored, so the set grows by exactly one |
| Registration.RegisterAll | backend/src/auth/auth.controllers.ts:3-12 | n registrations return n records and move the counter by n |
| Registration.RegisterAllFrom | backend/src/auth/auth.controllers.ts:3-12 | registration i gets the counter plus i and its own name, and the set gains exactly the new records |
| Registration.RegistrationsFromStartUp | backend/src/auth/auth.controllers.ts:3-12 | from start-up the ids are 0, 1, 2, … in order with the given names, and the set holds one record per registration |

## Left out

- Transport and encoding: JSON parsing, websocket framing, Bun and Elysia servers, socket subscription and topic publication. Messages are decoded values. A `server.publish` in backend/src/index.ts counts as delivered to the topic's user. The draft coordinator's `Publish(ws, AccountCreated)` is recorded but not delivered, because the only subscriber of that topic is the publishing socket, and a socket's own `publish` skips it.
- Delivery to closed sockets. Messages addressed to a disconnected user are still produced, and what the transport does with them is not modelled.
- `crypto.randomUUID()`: a connection's id is a parameter, and connections whose id is already in use are dropped. This is the freshness the UUID provides.
- `Math.random()`: each draw is a boolean parameter. Nothing is claimed about the coin's fairness.
- `createdAt`, `console` output, `alert`, the Svelte store wrapper, the HTTP bootstrapping (`PORT`, the `/tictactoe` path test) and `backend/src/auth/auth.routes.ts`.
- Unpaired UTF-16 surrogates: a Dafny `char` is a Unicode scalar value, so a username cannot hold one. A username decoded from the query string never does, since invalid percent-encoded UTF-8 decodes to U+FFFD.
- JavaScript numbers: coordinates and scores are unbounded integers, and non-integer coordinates are not modelled.
- The user counters of `PlayerEngine` and `Registration` are unbounded integers. Loss of precision past 2^53 is not modelled.
- The draft coordinator's `playMove` and `restartGame` cases do nothing beyond the "No move provided" check, and the model gives them no effect. Its `close` handler is commented out in the source.
- The draft coordinator's room game: `Room` omits the `TicTacToe` it constructs, because backend/src/tictactoe.ts is not part of this model.
- DraftRoutes.CreateAccount: a missing `payload` makes the source throw a `TypeError` before any change. The model treats this as a step that changes and sends nothing.
- ClientState: a key that is present with a `null` or `undefined` value counts as present in the source (`'key' in data`). The model represents present keys as `Some` and does not separate present-but-null from a value.
- The check at the start of `notifyPlayersOfGameStart` that player 1 has a room never fails, because the room was just set; the model always notifies.
- Matchmaker.HandlePlayTurn: a `playTurn` with a room but no `data` throws while destructuring. The model treats this as no change and no reply.
- Matchmaker.OnMessage: a message whose `type` is not a string is not modelled. Decoded types are strings or missing.
- MatchmakerProperties.PairingPairsInOrder: it is stated only for queues without duplicate ids. The duplicate case is covered by JoiningTwicePairsWithSelf.
- MatchmakerProperties.JoinsFillRooms: it is stated for bursts of joins starting from a queue of at most one user. Reachable states never hold more (ReachableFromStartUp).
- MatchmakerProperties.JoinsParity: it is stated for joins starting from a queue of at most one user. From a longer queue, which no run from start-up reaches, the first join pairs only the front users and more than one may stay waiting.

=== FILE: api.dfy ===
/**
 * The client/server protocol of src/api.ts, as already-decoded values.
 * `Mark` and `GameStatus` are the engine's own types: the API enums carry
 * exactly the same strings, so the server's cast from one to the other is
 * the identity.
 */
module Api {
  import opened Wrappers
  import opened Grid
  import opened MarkEngine

  /** The request kinds a client may send. */
  datatype ClientMessageType = JoinQueue | PlayTurn | LeaveGame | ReplayGame {
    function Tag(): string {
      match this
      case JoinQueue => "joinQueue"
      case PlayTurn => "playTurn"
      case LeaveGame => "leaveGame"
      case ReplayGame => "replayGame"
    }
  }

  /** The `switch (data.type)` of the server: which request a `type` string names, if any. */
  function ParseClientMessageType(s: string): (t: Option<ClientMessageType>)
    ensures t.Some? ==> t.value.Tag() == s
    ensures t.None? ==> forall k: ClientMessageType :: k.Tag() != s
  {
    if s == "joinQueue" then Some(JoinQueue)
    else if s == "playTurn" then Some(PlayTurn)
    else if s == "leaveGame" then Some(LeaveGame)
    else if s == "replayGame" then Some(ReplayGame)
    else None
  }

  /** Every request kind is recognised from its own tag. */
  lemma ParseTagRoundTrip(t: ClientMessageType)
    ensures ParseClientMessageType(t.Tag()) == Some(t)
  {
  }

  /** The `data` of a `playTurn` request. */
  datatype Coordinates = Coordinates(x: int, y: int)

  /**
   * A decoded client message: `type` may be missing, and `data` is only
   * present when the client sent it.
   */
  datatype ClientMessage = ClientMessage(kind: Option<string>, data: Option<Coordinates>)

  /** The error codes the server sends. */
  datatype ErrorMessageData = InvalidMessage | InvalidCoordinates | NotYourTurn | ServerError

  /** The per-recipient game view sent on game start and after every turn. */
  datatype GameUpdateData = GameUpdateData(
    status: GameStatus,
    opponentName: string,
    myMark: Mark,
    isCurrentPlayer: bool,
    squares: Board<Mark>)

  datatype ServerMessage =
    | GameUpdate(update: GameUpdateData)
    | OpponentDisconnected
    | Error(error: ErrorMessageData)
  {
    function Tag(): string {
      match this
      case GameUpdate(_) => "gameUpdate"
      case OpponentDisconnected => "opponentDisconnected"
      case Error(_) => "error"
    }
  }
}

=== FILE: client_state.dfy ===
/**
 * The browser client's view of a session (src/frontend/src/lib/webSocketService.ts
 * over the `GameState` record of frontend/src/lib/gameStore.ts): socket
 * open and error events and the incoming messages are pure updates of one
 * record. The store wrapper, `alert` and console output are left out.
 */
module ClientState {
  import opened Wrappers
  import Api

  /** A square as the client receives it: a mark's text or null. */
  type Squares = seq<seq<Option<string>>>

  /**
   * `GameState`; a nullable field is an `Option`. Scores are JavaScript
   * numbers and are modelled as integers.
   */
  datatype GameState = GameState(
    inGame: bool,
    inQueue: bool,
    gameIsOver: Option<bool>,
    player1Name: Option<string>,
    player2Name: Option<string>,
    player1Score: Option<int>,
    player2Score: Option<int>,
    squares: Option<Squares>,
    canPlay: Option<bool>,
    mark: Option<string>)

  /** `initialGameState`: not in a game or queue, every other field null. */
  const Initial: GameState := GameState(false, false, None, None, None, None, None, None, None, None)

  /**
   * The `data` object of a message, one field per key the client looks for;
   * a key present in the object is `Some`.
   */
  datatype MessageData = MessageData(
    player1Name: Option<string>,
    player2Name: Option<string>,
    mark: Option<string>,
    player1Score: Option<int>,
    player2Score: Option<int>,
    winner: Option<string>,
    squares: Option<Squares>)

  datatype SocketMessage = SocketMessage(kind: string, data: Option<MessageData>)

  /** `onopen`: the player is now waiting in the queue. */
  function OnOpen(s: GameState): (r: GameState)
    ensures r.inQueue && r.(inQueue := s.inQueue) == s
  {
    s.(inQueue := true)
  }

  /** `onerror`: neither queued nor playing. */
  function OnError(s: GameState): (r: GameState)
    ensures !r.inQueue && !r.inGame && r.(inQueue := s.inQueue, inGame := s.inGame) == s
  {
    s.(inQueue := false, inGame := false)
  }

  predicate HasGameStart(d: Option<MessageData>) {
    d.Some? && d.value.player1Name.Some? && d.value.player2Name.Some? && d.value.mark.Some?
  }

  predicate HasScores(d: Option<MessageData>) {
    d.Some? && d.value.player1Score.Some? && d.value.player2Score.Some?
  }

  predicate HasGameOver(d: Option<MessageData>) {
    d.Some? && d.value.winner.Some? && d.value.squares.Some?
  }

  /**
   * `processSocketMessage`. A game start replaces the whole record, starting
   * from the initial one; a score update and a game over change only their
   * own fields; everything else, including messages missing a key the case
   * needs, leaves the record as it was.
   */
  function Process(s: GameState, m: SocketMessage): (r: GameState)
    ensures m.kind == "gameStart" && HasGameStart(m.data) ==>
      r == Initial.(inGame := true, player1Name := m.data.value.player1Name,
                    player2Name := m.data.value.player2Name, mark := m.data.value.mark)
    ensures m.kind == "scoreUpdate" && HasScores(m.data) ==>
      && r.player1Score == m.data.value.player1Score && r.player2Score == m.data.value.player2Score
      && r.(player1Score := s.player1Score, player2Score := s.player2Score) == s
    ensures m.kind == "gameOver" && HasGameOver(m.data) ==>
      && r.gameIsOver == Some(true) && r.squares == m.data.value.squares
      && r.(gameIsOver := s.gameIsOver, squares := s.squares) == s
    ensures !Handled(m) ==> r == s
  {
    match m.kind
    case "gameStart" =>
      if HasGameStart(m.data) then
        var d := m.data.value;
        Initial.(inGame := true, player1Name := d.player1Name, player2Name := d.player2Name, mark := d.mark)
      else s
    case "scoreUpdate" =>
      if HasScores(m.data) then
        s.(player1Score := m.data.value.player1Score, player2Score := m.data.value.player2Score)
      else s
    case "gameOver" =>
      if HasGameOver(m.data) then s.(gameIsOver := Some(true), squares := m.data.value.squares)
      else s
    case _ => s
  }

  /** The messages that change the record: the three known kinds with their keys. */
  predicate Handled(m: SocketMessage) {
    || (m.kind == "gameStart" && HasGameStart(m.data))
    || (m.kind == "scoreUpdate" && HasScores(m.data))
    || (m.kind == "gameOver" && HasGameOver(m.data))
  }

  // ---------------------------------------------------------------------------
  // Properties

  /** Receiving the same message twice is the same as receiving it once. */
  lemma ProcessIdempotent(s: GameState, m: SocketMessage)
    ensures Process(Process(s, m), m) == Process(s, m)
  {
  }

  /** A game start forgets everything before it: the result does not depend on the prior record. */
  lemma GameStartForgetsPast(s1: GameState, s2: GameState, m: SocketMessage)
    requires m.kind == "gameStart" && HasGameStart(m.data)
    ensures Process(s1, m) == Process(s2, m)
    ensures !Process(s1, m).inQueue && Process(s1, m).gameIsOver.None?
  {
  }

  /** Reopening after an error queues the player again but not in a game; an open before an error is lost. */
  lemma ErrorThenOpen(s: GameState)
    ensures OnOpen(OnError(s)).inQueue && !OnOpen(OnError(s)).inGame
    ensures OnError(OnOpen(s)) == OnError(s)
  {
  }

  /**
   * None of the server's message types (src/api.ts) is one the reducer acts
   * on: whatever the server of backend/src/index.ts sends leaves the record
   * unchanged.
   */
  lemma ServerMessagesIgnored(s: GameState, msg: Api.ServerMessage, data: Option<MessageData>)
    ensures Process(s, SocketMessage(msg.Tag(), data)) == s
  {
  }
}

=== FILE: draft_routes.dfy ===
/**
 * The draft Elysia coordinator (backend/src/multiplayerRoutes.ts): accounts
 * are created per socket, users wait on a stack-like queue, and when two wait
 * the last two pushed are popped into a room.
 *
 * The three module-level arrays become one immutable `State`. Users, queue
 * entries and rooms refer to each other by position in `users` and `rooms`,
 * which are only ever appended to, so a position names one object for good.
 * A socket is named by its id. `ws.send` and `ws.publish` are kept apart as
 * `Send` and `Publish`. A `Publish` is recorded but reaches nobody: the
 * only subscriber of a socket's own topic is that socket, and a socket's
 * `publish` skips the socket itself.
 */
module DraftRoutes {
  import opened Wrappers

  /** A user object: the socket id it was created on, the name, and where it plays. */
  datatype User = User(id: string, username: Option<string>, inGame: bool, room: Option<nat>)

  /**
   * A room over two users, by position in `users`. The room's game is a
   * `TicTacToe` from backend/src/tictactoe.ts, which is not part of this model.
   */
  datatype Room = Room(user1: nat, user2: nat)

  datatype State = State(users: seq<User>, queue: seq<nat>, rooms: seq<Room>)

  /** The decoded `payload` of a message. */
  datatype Payload = Payload(username: Option<string>)

  /** The decoded fields of a message the handler reads; `kind` is its `type`. */
  datatype Data = Data(kind: Option<string>, payload: Option<Payload>, username: Option<string>, move: Option<string>)

  datatype Reply =
    | ErrorReply(text: string)
    | ItsWorking
    | AccountCreated
    | GameStart(opponent: Option<string>)

  datatype Outbound = Send(to: string, reply: Reply) | Publish(topic: string, reply: Reply)

  datatype Step = Step(st: State, out: seq<Outbound>)

  /** The three arrays at module load: all empty. */
  const Initial: State := State([], [], [])

  /** Every position stored anywhere names an existing user or room. */
  predicate Valid(st: State) {
    && (forall i | 0 <= i < |st.queue| :: st.queue[i] < |st.users|)
    && (forall r | 0 <= r < |st.rooms| :: st.rooms[r].user1 < |st.users| && st.rooms[r].user2 < |st.users|)
    && (forall i | 0 <= i < |st.users| && st.users[i].room.Some? :: st.users[i].room.value < |st.rooms|)
  }

  /** JavaScript truthiness of an optional string: present and not empty. */
  predicate Truthy(s: Option<string>) {
    s.Some? && s.value != ""
  }

  /** `getUserById`: the first user created on the socket, if any. */
  function GetUserById(users: seq<User>, id: string): (r: Option<nat>)
    ensures r.Some? ==> r.value < |users| && users[r.value].id == id
    ensures r.Some? ==> forall j | 0 <= j < r.value :: users[j].id != id
    ensures r.None? <==> forall j | 0 <= j < |users| :: users[j].id != id
  {
    if |users| == 0 then None
    else if users[0].id == id then Some(0)
    else match GetUserById(users[1..], id)
      case None => None
      case Some(i) => Some(i + 1)
  }

  /** The error reply to the sender, with the state unchanged. */
  function Reject(st: State, to: string, text: string): (r: Step)
    ensures r.st == st && r.out == [Send(to, ErrorReply(text))]
  {
    Step(st, [Send(to, ErrorReply(text))])
  }

  /**
   * `createAccount`. Without a payload, reading its `username` throws before
   * anything happens; that is modelled as a step that changes and sends
   * nothing. The name stored is the message's own `username`, not the one in
   * the payload that was checked.
   */
  function CreateAccount(st: State, ws: string, data: Data): (r: Step)
    requires Valid(st)
    ensures Valid(r.st)
    ensures data.payload.None? ==> r == Step(st, [])
    ensures data.payload.Some? && !Truthy(data.payload.value.username) ==>
      r == Reject(st, ws, "No username provided")
    ensures data.payload.Some? && Truthy(data.payload.value.username) ==>
      && r.st == st.(users := st.users + [User(ws, data.username, false, None)])
      && r.out == [Send(ws, ItsWorking), Publish(ws, AccountCreated)]
  {
    match data.payload
    case None => Step(st, [])
    case Some(payload) =>
      if !Truthy(payload.username) then Reject(st, ws, "No username provided")
      else
        var user := User(ws, data.username, false, None);
        Step(st.(users := st.users + [user]), [Send(ws, ItsWorking), Publish(ws, AccountCreated)])
  }

  /**
   * The room for the two users popped from the queue, `u1` the last pushed:
   * both are marked in game and point at the new room, which is appended.
   */
  function OpenRoom(st: State, u1: nat, u2: nat): (r: Step)
    requires Valid(st) && u1 < |st.users| && u2 < |st.users|
    ensures Valid(r.st)
    ensures |r.st.users| == |st.users| && r.st.queue == st.queue
    ensures r.st.rooms == st.rooms + [Room(u1, u2)]
    ensures r.st.users[u1].inGame && r.st.users[u1].room == Some(|st.rooms|)
    ensures r.st.users[u2].inGame && r.st.users[u2].room == Some(|st.rooms|)
    ensures forall i | 0 <= i < |st.users| && i != u1 && i != u2 :: r.st.users[i] == st.users[i]
    ensures forall i | 0 <= i < |st.users| :: r.st.users[i].id == st.users[i].id
    ensures forall i | 0 <= i < |st.users| :: r.st.users[i].username == st.users[i].username
    ensures r.out == [ Send(st.users[u1].id, GameStart(st.users[u2].username)),
                       Send(st.users[u2].id, GameStart(st.users[u1].username)) ]
  {
    var room := |st.rooms|;
    var users1 := st.users[u1 := st.users[u1].(inGame := true, room := Some(room))];
    var users2 := users1[u2 := users1[u2].(inGame := true, room := Some(room))];
    var st' := State(users2, st.queue, st.rooms + [Room(u1, u2)]);
    Step(st', [ Send(users2[u1].id, GameStart(users2[u2].username)),
                Send(users2[u2].id, GameStart(users2[u1].username)) ])
  }

  /**
   * `joinQueue`: the sender's first user is pushed unless missing or in a
   * game; once two wait, the last two pushed are popped and given a room.
   */
  function JoinQueue(st: State, ws: string): (r: Step)
    requires Valid(st)
    ensures Valid(r.st)
    ensures GetUserById(st.users, ws).None? ==> r == Reject(st, ws, "User not found")
    ensures GetUserById(st.users, ws).Some? && st.users[GetUserById(st.users, ws).value].inGame ==>
      r == Reject(st, ws, "User is already in a game")
    ensures |r.st.users| == |st.users|
    ensures forall i | 0 <= i < |st.users| :: r.st.users[i].id == st.users[i].id
    ensures forall u: nat | Admitted(st, ws, u) && |st.queue| == 0 :: r == Step(st.(queue := [u]), [])
    ensures forall u: nat | Admitted(st, ws, u) && |st.queue| >= 1 ::
      var w := st.queue[|st.queue| - 1];
      && r.st.queue == st.queue[..|st.queue| - 1]
      && r.st.rooms == st.rooms + [Room(u, w)]
      && r.st.users[u].inGame && r.st.users[u].room == Some(|st.rooms|)
      && r.st.users[w].inGame && r.st.users[w].room == Some(|st.rooms|)
      && (forall i | 0 <= i < |st.users| && i != u && i != w :: r.st.users[i] == st.users[i])
      && r.out == [ Send(st.users[u].id, GameStart(st.users[w].username)),
                    Send(st.users[w].id, GameStart(st.users[u].username)) ]
  {
    match GetUserById(st.users, ws)
    case None => Reject(st, ws, "User not found")
    case Some(u) =>
      if st.users[u].inGame then Reject(st, ws, "User is already in a game")
      else
        var queue := st.queue + [u];
        if |queue| >= 2 then
          var u1 := queue[|queue| - 1];
          var u2 := queue[|queue| - 2];
          OpenRoom(st.(queue := queue[..|queue| - 2]), u1, u2)
        else Step(st.(queue := queue), [])
  }

  /** The sender's first user exists, is user `u`, and is not in a game. */
  predicate Admitted(st: State, ws: string, u: nat) {
    GetUserById(st.users, ws) == Some(u) && u < |st.users| && !st.users[u].inGame
  }

  /** The `message` handler of the `/online` socket. */
  function OnMessage(st: State, ws: string, data: Option<Data>): (r: Step)
    requires Valid(st)
    ensures Valid(r.st)
    ensures data.None? || !Truthy(data.value.kind) ==> r == Reject(st, ws, "Invalid data")
    ensures data.Some? && data.value.kind == Some("createAccount") ==> r == CreateAccount(st, ws, data.value)
    ensures data.Some? && data.value.kind == Some("joinQueue") ==> r == JoinQueue(st, ws)
    ensures data.Some? && Truthy(data.value.kind) && !KnownKind(data.value.kind.value) ==>
      r == Reject(st, ws, "Unknown message type")
  {
    if data.None? || !Truthy(data.value.kind) then Reject(st, ws, "Invalid data")
    else
      var d := data.value;
      match d.kind.value
      case "createAccount" => CreateAccount(st, ws, d)
      case "joinQueue" => JoinQueue(st, ws)
      case "playMove" => if !Truthy(d.move) then Reject(st, ws, "No move provided") else Step(st, [])
      case "restartGame" => Step(st, [])
      case _ => Reject(st, ws, "Unknown message type")
  }

  predicate KnownKind(kind: string) {
    kind in {"createAccount", "joinQueue", "playMove", "restartGame"}
  }

  // ---------------------------------------------------------------------------
  // Properties

  /**
   * At most one user waits, and a waiting user is not in a game: the
   * `inGame` guard and the pop at two entries keep it so.
   */
  predicate Waiting(st: State)
    requires Valid(st)
  {
    |st.queue| <= 1 && forall i | 0 <= i < |st.queue| :: !st.users[st.queue[i]].inGame
  }

  /** Every message keeps the queue short and its user out of games. */
  lemma OnMessageKeepsWaiting(st: State, ws: string, data: Option<Data>)
    requires Valid(st) && Waiting(st)
    ensures Waiting(OnMessage(st, ws, data).st)
  {
    if data.Some? && data.value.kind == Some("createAccount") {
      CreateAccountKeepsWaiting(st, ws, data.value);
    } else if data.Some? && data.value.kind == Some("joinQueue") {
      JoinQueueKeepsWaiting(st, ws);
    }
  }

  lemma CreateAccountKeepsWaiting(st: State, ws: string, data: Data)
    requires Valid(st) && Waiting(st)
    ensures Waiting(CreateAccount(st, ws, data).st)
  {
    var r := CreateAccount(st, ws, data);
    assert forall i | 0 <= i < |st.users| :: r.st.users[i] == st.users[i];
  }

  lemma JoinQueueKeepsWaiting(st: State, ws: string)
    requires Valid(st) && Waiting(st)
    ensures Waiting(JoinQueue(st, ws).st)
  {
    match GetUserById(st.users, ws)
    case None =>
    case Some(u) =>
      if !st.users[u].inGame {
        assert Admitted(st, ws, u);
      }
  }

  /** The server after a sequence of messages, each with its socket id. */
  function Serve(st: State, events: seq<(string, Option<Data>)>): (r: State)
    requires Valid(st)
    ensures Valid(r)
    decreases |events|
  {
    if |events| == 0 then st else Serve(OnMessage(st, events[0].0, events[0].1).st, events[1..])
  }

  lemma {:induction false} ServeKeepsWaiting(st: State, events: seq<(string, Option<Data>)>)
    requires Valid(st) && Waiting(st)
    ensures Waiting(Serve(st, events))
    decreases |events|
  {
    if |events| > 0 {
      OnMessageKeepsWaiting(st, events[0].0, events[0].1);
      ServeKeepsWaiting(OnMessage(st, events[0].0, events[0].1).st, events[1..]);
    }
  }

  /** From module load on, at most one user waits and no waiting user is in a game. */
  lemma ReachableStatesWait(events: seq<(string, Option<Data>)>)
    ensures Valid(Serve(Initial, events)) && Waiting(Serve(Initial, events))
  {
    ServeKeepsWaiting(Initial, events);
  }

  /**
   * After a successful `createAccount`, `getUserById` finds a user for the
   * socket: the earlier one if the socket already had an account, else the
   * new one.
   */
  lemma CreatedAccountIsFound(st: State, ws: string, data: Data)
    requires Valid(st) && data.payload.Some? && Truthy(data.payload.value.username)
    ensures var users := CreateAccount(st, ws, data).st.users;
      && GetUserById(users, ws).Some?
      && (GetUserById(st.users, ws).Some? ==> GetUserById(users, ws) == GetUserById(st.users, ws))
      && (GetUserById(st.users, ws).None? ==> GetUserById(users, ws) == Some(|st.users|))
  {
    var users := CreateAccount(st, ws, data).st.users;
    FirstMatchAfterAppend(st.users, users[|st.users|], ws);
  }

  lemma {:induction false} FirstMatchAfterAppend(users: seq<User>, u: User, id: string)
    requires u.id == id
    ensures GetUserById(users + [u], id) ==
      if GetUserById(users, id).Some? then GetUserById(users, id) else Some(|users|)
  {
    if |users| > 0 {
      assert (users + [u])[1..] == users[1..] + [u];
      FirstMatchAfterAppend(users[1..], u, id);
    }
  }

  /**
   * Two users joining in turn on an empty queue share one new room; the
   * second to join is `user1` because the pairing pops the last entry first.
   */
  lemma TwoJoinsShareRoom(st: State, a: string, b: string, ua: nat, ub: nat)
    requires Valid(st) && st.queue == [] && ua != ub
    requires Admitted(st, a, ua) && Admitted(st, b, ub)
    ensures var s1 := JoinQueue(st, a).st;
      var r := JoinQueue(s1, b);
      && s1.queue == [ua] && r.st.queue == []
      && r.st.rooms == st.rooms + [Room(ub, ua)]
      && r.st.users[ua].room == r.st.users[ub].room == Some(|st.rooms|)
      && r.st.users[ua].inGame && r.st.users[ub].inGame
      && r.out == [ Send(b, GameStart(st.users[ua].username)),
                    Send(a, GameStart(st.users[ub].username)) ]
  {
    var s1 := JoinQueue(st, a).st;
    assert s1 == st.(queue := [ua]);
    assert Admitted(s1, b, ub);
  }
}

=== FILE: grid.dfy ===
/**
 * The three-by-three board and the line logic that both tic-tac-toe engines
 * share (src/backend/src/tictactoe.ts and frontend/src/routes/local/tictactoe.ts
 * carry the same code, once over marks and once over players).
 *
 * A board is a sequence of three rows of three cells; a cell is empty (`None`)
 * or holds a value of the engine's cell type.
 */
module Grid {
  import opened Wrappers

  type Cell<T> = Option<T>

  /** Three rows of three cells each. */
  predicate IsThreeByThree<T>(b: seq<seq<Cell<T>>>) {
    |b| == 3 && forall r | 0 <= r < 3 :: |b[r]| == 3
  }

  type Board<T> = b: seq<seq<Cell<T>>> | IsThreeByThree(b)
    witness [[None, None, None], [None, None, None], [None, None, None]]

  /** A coordinate the engines accept: the source rejects `x < 0 || x > 2`. */
  predicate InRange(i: int) {
    0 <= i <= 2
  }

  /** The board the engines' constructors build: nine empty cells. */
  function EmptyBoard<T>(): (b: Board<T>)
    ensures forall r, c | 0 <= r < 3 && 0 <= c < 3 :: b[r][c].None?
  {
    [[None, None, None], [None, None, None], [None, None, None]]
  }

  /** Writes one cell; the assignment `board[x][y] = v` of both engines. */
  function Set<T>(b: Board<T>, r: int, c: int, v: Cell<T>): (b': Board<T>)
    requires InRange(r) && InRange(c)
    ensures b'[r][c] == v
    ensures forall i, j | 0 <= i < 3 && 0 <= j < 3 && (i != r || j != c) :: b'[i][j] == b[i][j]
  {
    b[r := b[r][c := v]]
  }

  /** Every cell is occupied. */
  predicate Full<T>(b: Board<T>) {
    forall r, c | 0 <= r < 3 && 0 <= c < 3 :: b[r][c].Some?
  }

  /**
   * The isBoardFull scan of both engines, with its nested loops and early
   * breaks as written.
   */
  method ScanFull<T>(b: Board<T>) returns (isBoardFull: bool)
    ensures isBoardFull <==> Full(b)
  {
    isBoardFull := true;
    var i := 0;
    while i < 3
      invariant 0 <= i <= 3
      invariant isBoardFull
      invariant forall r, c | 0 <= r < i && 0 <= c < 3 :: b[r][c].Some?
    {
      var j := 0;
      while j < 3
        invariant 0 <= j <= 3
        invariant isBoardFull
        invariant forall c | 0 <= c < j :: b[i][c].Some?
      {
        if b[i][j].None? {
          isBoardFull := false;
          break;
        }
        j := j + 1;
      }
      if !isBoardFull {
        break;
      }
      i := i + 1;
    }
  }

  /** The eight lines of the board. */
  datatype Line = Row(r: nat) | Column(c: nat) | Diagonal | AntiDiagonal

  predicate ValidLine(l: Line) {
    match l
    case Row(r) => r < 3
    case Column(c) => c < 3
    case _ => true
  }

  /** The k-th cell of a line, as (row, column). */
  function CellOf(l: Line, k: nat): (p: (int, int))
    requires ValidLine(l) && k < 3
    ensures InRange(p.0) && InRange(p.1)
  {
    match l
    case Row(r) => (r, k)
    case Column(c) => (k, c)
    case Diagonal => (k, k)
    case AntiDiagonal => (k, 2 - k)
  }

  function At<T>(b: Board<T>, p: (int, int)): Cell<T>
    requires InRange(p.0) && InRange(p.1)
  {
    b[p.0][p.1]
  }

  /** All three cells of line `l` hold `v`. */
  predicate Completes<T(==)>(b: Board<T>, l: Line, v: T)
    requires ValidLine(l)
  {
    At(b, CellOf(l, 0)) == Some(v) && At(b, CellOf(l, 1)) == Some(v) && At(b, CellOf(l, 2)) == Some(v)
  }

  /** Reference definition: some line of the board is three times `v`. */
  ghost predicate HasLine<T>(b: Board<T>, v: T) {
    exists l: Line :: ValidLine(l) && Completes(b, l, v)
  }

  /** No value owns a line. */
  ghost predicate NoLine<T(!new)>(b: Board<T>) {
    forall v: T :: !HasLine(b, v)
  }

  /**
   * The owner of a single line as the engines test it: the first cell is
   * non-null and the other two are equal to it.
   */
  function LineOwner<T(==,!new)>(b: Board<T>, l: Line): (o: Option<T>)
    requires ValidLine(l)
    ensures o.Some? ==> Completes(b, l, o.value)
    ensures o.None? ==> forall v: T :: !Completes(b, l, v)
  {
    var first := At(b, CellOf(l, 0));
    if first.Some? && first == At(b, CellOf(l, 1)) && first == At(b, CellOf(l, 2)) then first else None
  }

  /** The order in which the engines test the lines: rows, columns, then both diagonals. */
  const CheckOrder: seq<Line> :=
    [Row(0), Row(1), Row(2), Column(0), Column(1), Column(2), Diagonal, AntiDiagonal]

  /** The owner of the first complete line of `ls`, testing them in order. */
  function FirstOwner<T(==,!new)>(b: Board<T>, ls: seq<Line>): (o: Option<T>)
    requires forall i | 0 <= i < |ls| :: ValidLine(ls[i])
    ensures o.Some? ==> exists i | 0 <= i < |ls| :: Completes(b, ls[i], o.value)
    ensures o.None? ==> forall i, v: T | 0 <= i < |ls| :: !Completes(b, ls[i], v)
  {
    if |ls| == 0 then None
    else
      var o := LineOwner(b, ls[0]);
      if o.Some? then o
      else
        var rest := FirstOwner(b, ls[1..]);
        assert forall i | 1 <= i < |ls| :: ls[i] == ls[1..][i - 1];
        rest
  }

  /** Every line of the board is among the tested ones. */
  lemma CheckOrderCoversAllLines(l: Line)
    requires ValidLine(l)
    ensures l in CheckOrder
  {
    match l
    case Row(r) => assert CheckOrder[r] == l;
    case Column(c) => assert CheckOrder[3 + c] == l;
    case Diagonal => assert CheckOrder[6] == l;
    case AntiDiagonal => assert CheckOrder[7] == l;
  }

  /** The value the engines' status getters report as winner, if any. */
  function Winner<T(==,!new)>(b: Board<T>): Option<T> {
    FirstOwner(b, CheckOrder)
  }

  /**
   * The ordered scan agrees with the reference definition: a reported winner
   * owns a line, and no winner is reported exactly when nobody owns one.
   */
  lemma WinnerMatchesLines<T(!new)>(b: Board<T>)
    ensures Winner(b).Some? ==> HasLine(b, Winner(b).value)
    ensures Winner(b).None? <==> NoLine(b)
  {
    var w := Winner(b);
    if w.Some? {
      var i :| 0 <= i < |CheckOrder| && Completes(b, CheckOrder[i], w.value);
      assert ValidLine(CheckOrder[i]);
      assert HasLine(b, w.value);
    } else {
      forall v: T ensures !HasLine(b, v) {
        if HasLine(b, v) {
          var l :| ValidLine(l) && Completes(b, l, v);
          CheckOrderCoversAllLines(l);
        }
      }
    }
  }

  /** When exactly one value owns lines, the scan reports that value whatever the order. */
  lemma SoleOwnerWins<T(!new)>(b: Board<T>)
    ensures forall v: T | HasLine(b, v) && (forall w: T | w != v :: !HasLine(b, w)) :: Winner(b) == Some(v)
  {
    WinnerMatchesLines(b);
  }

  /**
   * Writing `v` into an empty-or-other cell cannot complete a line for any
   * value other than `v`: such a line avoided the written cell and was
   * already complete before.
   */
  lemma WriteCompletesOnlyWriter<T(!new)>(b: Board<T>, r: int, c: int, v: T, w: T)
    requires InRange(r) && InRange(c)
    requires w != v
    requires HasLine(Set(b, r, c, Some(v)), w)
    ensures HasLine(b, w)
  {
    var b' := Set(b, r, c, Some(v));
    var l :| ValidLine(l) && Completes(b', l, w);
    forall k | 0 <= k < 3
      ensures At(b, CellOf(l, k)) == Some(w)
    {
      var p := CellOf(l, k);
      assert At(b', p) == Some(w);
      assert p != (r, c);
    }
    assert Completes(b, l, w);
  }

  /** Number of cells of a row holding `v`. */
  function CountIn<T(==)>(s: seq<Cell<T>>, v: T): nat {
    if |s| == 0 then 0 else (if s[0] == Some(v) then 1 else 0) + CountIn(s[1..], v)
  }

  /** Number of cells of the board holding `v`. */
  function Count<T(==)>(b: Board<T>, v: T): nat {
    CountIn(b[0], v) + CountIn(b[1], v) + CountIn(b[2], v)
  }

  function Indicator(p: bool): nat {
    if p then 1 else 0
  }

  /** Overwriting one element changes the count by what left and what arrived. */
  lemma {:induction false} CountInUpdate<T(!new)>(s: seq<Cell<T>>, k: int, x: Cell<T>, v: T)
    requires 0 <= k < |s|
    ensures CountIn(s[k := x], v) + Indicator(s[k] == Some(v)) == CountIn(s, v) + Indicator(x == Some(v))
  {
    if k == 0 {
      assert s[k := x][1..] == s[1..];
    } else {
      CountInUpdate(s[1..], k - 1, x, v);
      assert s[k := x][1..] == s[1..][k - 1 := x];
    }
  }

  /** Writing `x` into cell (r, c) changes the board's count of `v` the same way. */
  lemma CountAfterSet<T(!new)>(b: Board<T>, r: int, c: int, x: Cell<T>, v: T)
    requires InRange(r) && InRange(c)
    ensures Count(Set(b, r, c, x), v) + Indicator(b[r][c] == Some(v)) == Count(b, v) + Indicator(x == Some(v))
  {
    CountInUpdate(b[r], c, x, v);
    var b' := Set(b, r, c, x);
    assert b'[r] == b[r][c := x];
    assert forall i | InRange(i) && i != r :: b'[i] == b[i];
  }

  lemma EmptyBoardCounts<T(!new)>(v: T)
    ensures Count(EmptyBoard<T>(), v) == 0
  {
  }
}

=== FILE: mark_engine.dfy ===
/**
 * The mark-based tic-tac-toe engine the server imports
 * (src/backend/src/tictactoe.ts): a board of X / O / empty cells and the
 * mark to move, starting with X. The game status is derived from the board
 * on every read and never stored.
 */
module MarkEngine {
  import opened Wrappers
  import opened Grid

  /** The two marks; the wire strings are "X" and "O". */
  datatype Mark = X | O {
    function Other(): Mark {
      if this == X then O else X
    }
  }

  /** Derived game status; the wire strings match the client API's enum. */
  datatype GameStatus = InProgress | XPlayerWin | OPlayerWin | Draw

  function WinFor(m: Mark): GameStatus {
    if m == X then XPlayerWin else OPlayerWin
  }

  datatype Game = Game(board: Board<Mark>, current: Mark)

  /** Why `playTurn` throws. */
  datatype MoveError =
    | BoardIndexError  // `board[x]` is undefined, so reading `board[x][y]` raises a TypeError
    | GameIsOver       // 'The game is over'
    | InvalidPosition  // 'Invalid position': y out of range or the cell taken

  /** A successful turn: the updated game and the status `playTurn` returns. */
  datatype Turn = Turn(game: Game, status: GameStatus)

  /** The constructor: an empty board, X to move. */
  function NewGame(): (g: Game)
    ensures forall r, c | 0 <= r < 3 && 0 <= c < 3 :: g.board[r][c].None?
    ensures g.current == X
  {
    Game(EmptyBoard(), X)
  }

  /**
   * The `gameStatus` getter: the first complete line, in the order rows,
   * columns, diagonals, decides the winner; otherwise a full board is a
   * draw and any other board is still in progress.
   */
  function Status(b: Board<Mark>): (s: GameStatus)
    ensures s == XPlayerWin ==> HasLine(b, X)
    ensures s == OPlayerWin ==> HasLine(b, O)
    ensures HasLine(b, X) && !HasLine(b, O) ==> s == XPlayerWin
    ensures HasLine(b, O) && !HasLine(b, X) ==> s == OPlayerWin
    ensures s == Draw <==> NoLine(b) && Full(b)
    ensures s == InProgress <==> NoLine(b) && !Full(b)
  {
    WinnerMatchesLines(b);
    SoleOwnerWins(b);
    match Winner(b)
    case Some(m) => WinFor(m)
    case None => if Full(b) then Draw else InProgress
  }

  /**
   * `playTurn(x, y)`: rejected without any change when `board[x]` does not
   * exist, when the game is over, or when (x, y) is off the board or taken;
   * otherwise the current mark is written into (x, y), the mover flips and the
   * status of the new board is returned.
   */
  function PlayTurn(g: Game, x: int, y: int): (r: Result<Turn, MoveError>)
    ensures r.Success? <==> InRange(x) && InRange(y) && Status(g.board) == InProgress && g.board[x][y].None?
    ensures !InRange(x) ==> r == Failure(BoardIndexError)
    ensures InRange(x) && Status(g.board) != InProgress ==> r == Failure(GameIsOver)
    ensures InRange(x) && Status(g.board) == InProgress && (!InRange(y) || g.board[x][y].Some?) ==>
              r == Failure(InvalidPosition)
    ensures r.Success? ==>
              && r.value.game.board[x][y] == Some(g.current)
              && (forall i, j | 0 <= i < 3 && 0 <= j < 3 && (i != x || j != y) ::
                    r.value.game.board[i][j] == g.board[i][j])
              && r.value.game.current == g.current.Other()
              && r.value.status == Status(r.value.game.board)
  {
    if !InRange(x) then Failure(BoardIndexError)
    else if Status(g.board) != InProgress then Failure(GameIsOver)
    else if !InRange(y) || g.board[x][y].Some? then Failure(InvalidPosition)
    else
      var g' := Game(Set(g.board, x, y, Some(g.current)), g.current.Other());
      Success(Turn(g', Status(g'.board)))
  }

  /**
   * A sequence of `playTurn` calls on one engine; a rejected call throws
   * before touching the engine, so the game carries on unchanged.
   */
  function Run(g: Game, moves: seq<(int, int)>): Game
    decreases |moves|
  {
    if |moves| == 0 then g
    else
      var r := PlayTurn(g, moves[0].0, moves[0].1);
      Run(if r.Success? then r.value.game else g, moves[1..])
  }

  /**
   * What holds in every game reachable from the constructor: X has made as
   * many moves as O when X is to move and one more when O is, and the two
   * marks never both own a line.
   */
  ghost predicate Consistent(g: Game) {
    && Count(g.board, X) == Count(g.board, O) + (if g.current == X then 0 else 1)
    && !(HasLine(g.board, X) && HasLine(g.board, O))
  }

  lemma NewGameConsistent()
    ensures Consistent(NewGame())
  {
    EmptyBoardCounts(X);
    EmptyBoardCounts(O);
    WinnerMatchesLines(NewGame().board);
  }

  /** A successful turn keeps the game consistent. */
  lemma PlayTurnKeepsConsistent(g: Game, x: int, y: int)
    requires Consistent(g)
    requires PlayTurn(g, x, y).Success?
    ensures Consistent(PlayTurn(g, x, y).value.game)
  {
    var m := g.current;
    var b' := Set(g.board, x, y, Some(m));
    assert PlayTurn(g, x, y).value.game.board == b';
    CountAfterSet(g.board, x, y, Some(m), X);
    CountAfterSet(g.board, x, y, Some(m), O);
    // The game was in progress, so nobody owned a line; only the mover can own one now.
    if HasLine(b', m.Other()) {
      WriteCompletesOnlyWriter(g.board, x, y, m, m.Other());
    }
  }

  /** Every game reached by a sequence of turns from a consistent one is consistent. */
  lemma {:induction false} RunKeepsConsistent(g: Game, moves: seq<(int, int)>)
    requires Consistent(g)
    ensures Consistent(Run(g, moves))
    decreases |moves|
  {
    if |moves| > 0 {
      var r := PlayTurn(g, moves[0].0, moves[0].1);
      if r.Success? {
        PlayTurnKeepsConsistent(g, moves[0].0, moves[0].1);
      }
      RunKeepsConsistent(if r.Success? then r.value.game else g, moves[1..]);
    }
  }

  /**
   * In every game reachable from the constructor the counts alternate, and a
   * mark has won exactly when it owns a line.
   */
  lemma ReachableGames(moves: seq<(int, int)>, m: Mark)
    ensures var g := Run(NewGame(), moves);
      && Count(g.board, X) - Count(g.board, O) == (if g.current == X then 0 else 1)
      && (Status(g.board) == WinFor(m) <==> HasLine(g.board, m))
  {
    NewGameConsistent();
    RunKeepsConsistent(NewGame(), moves);
  }
}

=== FILE: matchmaker.dfy ===
/**
 * The matchmaking and session coordinator of the game server
 * (backend/src/index.ts): username check at connection time, the waiting
 * queue, FIFO pairing with a coin flip for the first mover, rooms over one
 * shared game, turn validation, leave / disconnect teardown and replay
 * consent.
 *
 * The server's mutable objects become one immutable `State`: users by
 * connection id, the queue of user ids, and the games by id. A room names its
 * game by id, so two rooms naming the same id share one game exactly as the
 * two `room` objects built by `initializeGame` share one `TicTacToe`. Every
 * handler returns the new state and the messages it sends, as
 * (recipient, message) pairs; each user's socket is subscribed to the topic
 * named by its id, so publishing to that topic and sending on the socket are
 * both a message to that user. `Math.random() < 0.5` is a parameter: draw
 * number k of an event is `coin(k)`.
 */
module Matchmaker {
  import opened Wrappers
  import opened Grid
  import opened MarkEngine
  import opened Api

  const MinUsernameLength: nat := 2
  const MaxUsernameLength: nat := 16

  /** The random UUID assigned when the connection is upgraded. */
  type UserId = string

  type GameId = nat

  /** A user's `room`: the opponent, the user's own mark, the shared game and the replay flag. */
  datatype Room = Room(opponent: UserId, myMark: Mark, game: GameId, wantsReplay: bool)

  datatype User = User(username: string, room: Option<Room>)

  /**
   * Users are never removed: a disconnected user's record stays reachable
   * through queue entries and opponents' rooms, exactly as the object does.
   * `nextGame` is the id the next `new TicTacToe()` receives.
   */
  datatype State = State(
    users: map<UserId, User>,
    queue: seq<UserId>,
    games: map<GameId, Game>,
    nextGame: GameId)

  datatype Outbound = Outbound(to: UserId, msg: ServerMessage)

  /** What a handler leaves behind: the new state and the messages it sent, in order. */
  datatype Step = Step(st: State, out: seq<Outbound>)

  /** The server at start-up: nobody connected, an empty queue. */
  const Initial: State := State(map[], [], map[], 0)

  /**
   * Referential integrity: every queued id and every opponent is a known
   * user, every room's game exists, and game ids below `nextGame` are the
   * only ones used.
   */
  predicate Valid(st: State) {
    && (forall i | 0 <= i < |st.queue| :: st.queue[i] in st.users)
    && (forall id | id in st.users && st.users[id].room.Some? ::
          st.users[id].room.value.opponent in st.users && st.users[id].room.value.game in st.games)
    && (forall g | g in st.games :: g < st.nextGame)
  }

  lemma InitialValid()
    ensures Valid(Initial)
  {
  }

  // ---------------------------------------------------------------------------
  // Connection

  /**
   * The `length` JavaScript reports for a string: its UTF-16 code units, one
   * for a character of the Basic Multilingual Plane and two (a surrogate
   * pair) for a character at or above U+10000.
   */
  function Utf16Length(s: string): (n: nat)
    ensures |s| <= n <= 2 * |s|
    ensures (forall i | 0 <= i < |s| :: s[i] as int < 0x1_0000) ==> n == |s|
    ensures (forall i | 0 <= i < |s| :: s[i] as int >= 0x1_0000) ==> n == 2 * |s|
    decreases |s|
  {
    if |s| == 0 then 0
    else (if s[0] as int < 0x1_0000 then 1 else 2) + Utf16Length(s[1..])
  }

  /**
   * `isValidUsername`: present, and 2 to 16 UTF-16 code units long. A name
   * accepted this way has 1 to 16 characters.
   */
  function IsValidUsername(username: Option<string>): (ok: bool)
    ensures ok <==> username.Some? && MinUsernameLength <= Utf16Length(username.value) <= MaxUsernameLength
    ensures ok ==> 1 <= |username.value| <= 16
  {
    username.Some? && Utf16Length(username.value) >= MinUsernameLength && Utf16Length(username.value) <= MaxUsernameLength
  }

  /** For names within the Basic Multilingual Plane, code units and characters agree. */
  lemma BmpUsername(name: string)
    requires forall i | 0 <= i < |name| :: name[i] as int < 0x1_0000
    ensures IsValidUsername(Some(name)) <==> 2 <= |name| <= 16
  {
  }

  /**
   * A character outside the Basic Multilingual Plane counts twice: one such
   * character makes a valid name, and eight of them are the most a name may
   * hold.
   */
  lemma AstralUsernames(c: char)
    requires c as int >= 0x1_0000
    ensures IsValidUsername(Some([c]))
    ensures IsValidUsername(Some(seq(8, _ => c)))
    ensures !IsValidUsername(Some(seq(9, _ => c)))
  {
    var eight, nine := seq(8, _ => c), seq(9, _ => c);
    assert forall i | 0 <= i < |eight| :: eight[i] == c;
    assert forall i | 0 <= i < |nine| :: nine[i] == c;
  }

  /** The HTTP answer to an upgrade request. */
  datatype Handshake = InvalidUsername | UpgradeFailed | Upgraded

  /**
   * `handleTicTacToeRequest`: a request with an invalid username is answered
   * 400 and creates no session; otherwise the upgrade (which the transport
   * may refuse, answered 500) creates a user without a room. `id` is the
   * fresh UUID.
   */
  function HandleTicTacToeRequest(st: State, id: UserId, username: Option<string>, upgraded: bool): (r: (State, Handshake))
    requires Valid(st) && id !in st.users
    ensures Valid(r.0)
    ensures r.1 == Upgraded <==> IsValidUsername(username) && upgraded
    ensures !IsValidUsername(username) ==> r.1 == InvalidUsername
    ensures r.1 != Upgraded ==> r.0 == st
    ensures r.1 == Upgraded ==>
              && r.0.users.Keys == st.users.Keys + {id}
              && r.0.users[id] == User(username.value, None)
              && (forall u | u in st.users :: r.0.users[u] == st.users[u])
              && r.0.queue == st.queue && r.0.games == st.games && r.0.nextGame == st.nextGame
  {
    if !IsValidUsername(username) then (st, InvalidUsername)
    else if !upgraded then (st, UpgradeFailed)
    else (st.(users := st.users[id := User(username.value, None)]), Upgraded)
  }

  // ---------------------------------------------------------------------------
  // Framing facts shared by the handlers' contracts

  function SetRoom(st: State, id: UserId, room: Option<Room>): State
    requires id in st.users
  {
    st.(users := st.users[id := st.users[id].(room := room)])
  }

  /** Every user keeps their name and nobody joins or leaves the table. */
  ghost predicate SameUsers(st: State, st': State) {
    && st'.users.Keys == st.users.Keys
    && forall u {:trigger st'.users[u].username} {:trigger st.users[u].username} | u in st.users ::
         st'.users[u].username == st.users[u].username
  }

  /** Users other than `a` and `b` are untouched. */
  ghost predicate OthersUntouched(st: State, st': State, a: UserId, b: UserId) {
    forall u {:trigger st'.users[u]} {:trigger st.users[u]} | u in st.users && u != a && u != b ::
      u in st'.users && st'.users[u] == st.users[u]
  }

  /** Existing games are kept as they are; new ones may appear. */
  ghost predicate GamesKept(st: State, st': State) {
    forall g | g in st.games :: g in st'.games && st'.games[g] == st.games[g]
  }

  // ---------------------------------------------------------------------------
  // Game start

  /** The view a player gets at game start: in progress, empty board. */
  function StartUpdate(opponentName: string, myMark: Mark, isCurrentPlayer: bool): ServerMessage {
    GameUpdate(GameUpdateData(InProgress, opponentName, myMark, isCurrentPlayer, EmptyBoard()))
  }

  /**
   * `notifyPlayersOfGameStart`: player 1 is told it plays X and moves first,
   * player 2 that it plays O and waits; both see the board of player 1's game.
   */
  function NotifyPlayersOfGameStart(st: State, p1: UserId, p2: UserId): seq<Outbound>
    requires Valid(st) && p1 in st.users && p2 in st.users
  {
    match st.users[p1].room
    case None => []
    case Some(room) =>
      var board := st.games[room.game].board;
      [ Outbound(p1, GameUpdate(GameUpdateData(InProgress, st.users[p2].username, X, true, board))),
        Outbound(p2, GameUpdate(GameUpdateData(InProgress, st.users[p1].username, O, false, board))) ]
  }

  /**
   * `initializeGame`: one fresh game shared by two new rooms, player 1 on X
   * and player 2 on O, each the other's opponent, no replay flag; then both
   * are notified. When both ids are the same user, the second assignment wins.
   */
  function InitializeGame(st: State, p1: UserId, p2: UserId): (r: Step)
    requires Valid(st) && p1 in st.users && p2 in st.users
    ensures Valid(r.st)
    ensures SameUsers(st, r.st) && OthersUntouched(st, r.st, p1, p2) && GamesKept(st, r.st)
    ensures st.nextGame !in st.games && r.st.games == st.games[st.nextGame := NewGame()]
    ensures r.st.nextGame == st.nextGame + 1 && r.st.queue == st.queue
    ensures r.st.users[p2].room == Some(Room(p1, O, st.nextGame, false))
    ensures p1 != p2 ==> r.st.users[p1].room == Some(Room(p2, X, st.nextGame, false))
    ensures r.out == [ Outbound(p1, StartUpdate(st.users[p2].username, X, true)),
                       Outbound(p2, StartUpdate(st.users[p1].username, O, false)) ]
  {
    var g := st.nextGame;
    var st1 := SetRoom(st, p1, Some(Room(p2, X, g, false)));
    var st2 := SetRoom(st1, p2, Some(Room(p1, O, g, false)));
    var st3 := st2.(games := st2.games[g := NewGame()], nextGame := g + 1);
    Step(st3, NotifyPlayersOfGameStart(st3, p1, p2))
  }

  // ---------------------------------------------------------------------------
  // Queue and pairing

  /**
   * `tryPairingPlayers` from draw number `k` on: while two users wait, the
   * two at the front are taken, swapped when the draw is below one half, and
   * given a game.
   */
  function TryPairing(st: State, coin: nat -> bool, k: nat): (r: Step)
    requires Valid(st)
    ensures Valid(r.st)
    ensures |st.queue| % 2 == 0 ==> r.st.queue == []
    ensures |st.queue| % 2 == 1 ==> r.st.queue == [st.queue[|st.queue| - 1]]
    ensures r.st.nextGame == st.nextGame + |st.queue| / 2
    ensures |r.out| == |st.queue| / 2 * 2
    decreases |st.queue|
  {
    if |st.queue| < 2 then Step(st, [])
    else
      var start := PairFront(st, coin(k));
      var rest := TryPairing(start.st, coin, k + 1);
      DropPairKeepsTail(st.queue);
      Step(rest.st, start.out + rest.out)
  }

  /** The two users at the front of the queue, swapped when the draw says so. */
  function FrontPair(q: seq<UserId>, swap: bool): (UserId, UserId)
    requires |q| >= 2
  {
    if swap then (q[1], q[0]) else (q[0], q[1])
  }

  /**
   * One step of pairing: the front pair leaves the queue, shares a new game
   * and gets one message each, the user on X first.
   */
  function PairFront(st: State, swap: bool): (r: Step)
    requires Valid(st) && |st.queue| >= 2
    ensures Valid(r.st) && r.st.queue == st.queue[2..] && r.st.nextGame == st.nextGame + 1
    ensures |r.out| == 2
    ensures r.out[0].to == FrontPair(st.queue, swap).0 && r.out[1].to == FrontPair(st.queue, swap).1
  {
    var (p1, p2) := FrontPair(st.queue, swap);
    var rest := st.(queue := st.queue[2..]);
    assert forall u | u in rest.queue :: u in st.queue;
    InitializeGame(rest, p1, p2)
  }

  /** Pairing renames nobody, touches only queued users and keeps every existing game. */
  lemma {:induction false} TryPairingFrame(st: State, coin: nat -> bool, k: nat)
    requires Valid(st)
    ensures var r := TryPairing(st, coin, k);
      && SameUsers(st, r.st) && GamesKept(st, r.st)
      && (forall u | u in st.users && u !in st.queue :: r.st.users[u] == st.users[u])
    decreases |st.queue|
  {
    var q := st.queue;
    if |q| >= 2 {
      var (p1, p2) := FrontPair(q, coin(k));
      var start := PairFront(st, coin(k));
      assert start == InitializeGame(st.(queue := q[2..]), p1, p2);
      TryPairingFrame(start.st, coin, k + 1);
      DropPairKeepsTail(q);
    }
  }

  /** Pairing writes only to queued users. */
  lemma {:induction false} TryPairingRecipients(st: State, coin: nat -> bool, k: nat)
    requires Valid(st)
    ensures var r := TryPairing(st, coin, k);
      forall i | 0 <= i < |r.out| :: r.out[i].to in st.queue
    decreases |st.queue|
  {
    var q := st.queue;
    if |q| >= 2 {
      var (p1, p2) := FrontPair(q, coin(k));
      var start := PairFront(st, coin(k));
      var rest := TryPairing(start.st, coin, k + 1);
      TryPairingRecipients(start.st, coin, k + 1);
      DropPairKeepsTail(q);
      assert |start.out| == 2 && start.out[0].to == p1 && start.out[1].to == p2;
      assert start.st.queue == q[2..];
      forall i | 0 <= i < |rest.out|
        ensures rest.out[i].to in q
      {
        assert TryPairing(start.st, coin, k + 1).out[i].to in start.st.queue;
      }
      RecipientsOfConcat(start.out, rest.out, q);
      assert TryPairing(st, coin, k).out == start.out + rest.out;
    }
  }

  /** Dropping the front pair leaves the same unpaired tail and one pair fewer. */
  lemma DropPairKeepsTail(q: seq<UserId>)
    requires |q| >= 2
    ensures |q[2..]| % 2 == |q| % 2 && |q[2..]| / 2 + 1 == |q| / 2
    ensures |q| > 2 ==> q[2..][|q[2..]| - 1] == q[|q| - 1]
    ensures forall u | u in q[2..] :: u in q
  {
    var m := |q| % 2;
    assert |q[2..]| % 2 == m;
  }

  lemma RecipientsOfConcat(a: seq<Outbound>, b: seq<Outbound>, q: seq<UserId>)
    requires forall i | 0 <= i < |a| :: a[i].to in q
    requires forall i | 0 <= i < |b| :: b[i].to in q
    ensures forall i | 0 <= i < |a + b| :: (a + b)[i].to in q
  {
    forall i | 0 <= i < |a + b|
      ensures (a + b)[i].to in q
    {
      if i >= |a| {
        assert (a + b)[i] == b[i - |a|];
      }
    }
  }

  /** `enqueuePlayer`: append the sender, whatever its state, then pair. */
  function EnqueuePlayer(st: State, sender: UserId, coin: nat -> bool): (r: Step)
    requires Valid(st) && sender in st.users
    ensures Valid(r.st)
    ensures |st.queue| % 2 == 0 ==> r.st.queue == [sender]
    ensures |st.queue| % 2 == 1 ==> r.st.queue == []
    ensures r.st.nextGame == st.nextGame + (|st.queue| + 1) / 2
    ensures SameUsers(st, r.st) && GamesKept(st, r.st)
  {
    var queued := st.(queue := st.queue + [sender]);
    assert Valid(queued) && queued.queue[|queued.queue| - 1] == sender;
    OneMore(|st.queue|);
    TryPairingFrame(queued, coin, 0);
    TryPairing(queued, coin, 0)
  }

  /**
   * One more in the queue flips its parity. Stated on its own so that the
   * solver need not reason about `%` on the whole queue length.
   */
  lemma OneMore(n: nat)
    ensures (n + 1) % 2 == 1 - n % 2
  {
  }

  /** Joining a queue of at most one user either waits alone or starts one game. */
  lemma EnqueueOnShortQueue(st: State, u: UserId, coin: nat -> bool)
    requires Valid(st) && u in st.users && |st.queue| <= 1
    ensures var r := EnqueuePlayer(st, u, coin).st;
      && |r.queue| <= 1 && r.nextGame >= st.nextGame
      && |r.queue| + 2 * (r.nextGame - st.nextGame) == |st.queue| + 1
  {
    assert |st.queue| % 2 == |st.queue|;
  }

  // ---------------------------------------------------------------------------
  // Turns

  /**
   * The turn the engine accepts: the sender has a room, sent coordinates,
   * holds the mark to move, and the engine takes the move.
   */
  predicate TurnAccepted(st: State, sender: UserId, data: Option<Coordinates>)
    requires Valid(st) && sender in st.users
  {
    && st.users[sender].room.Some?
    && data.Some?
    && var room := st.users[sender].room.value;
       var game := st.games[room.game];
       && game.current == room.myMark
       && MarkEngine.PlayTurn(game, data.value.x, data.value.y).Success?
  }

  /**
   * `updatePlayersAfterTurn`: both players get the status and board of the
   * sender's game, each told whether the mark to move is their own and given
   * the other's name; when the sender or the opponent has no room, only the
   * sender hears back, with a server error.
   */
  function UpdatePlayersAfterTurn(st: State, sender: UserId): (r: seq<Outbound>)
    requires Valid(st) && sender in st.users
    ensures st.users[sender].room.None? ==> r == [Outbound(sender, Error(ServerError))]
    ensures st.users[sender].room.Some? ==>
              var room := st.users[sender].room.value;
              var game := st.games[room.game];
              && (st.users[room.opponent].room.None? ==> r == [Outbound(sender, Error(ServerError))])
              && (st.users[room.opponent].room.Some? ==>
                    && |r| == 2
                    && r[0].to == sender && r[1].to == room.opponent
                    && r[0].msg.GameUpdate? && r[1].msg.GameUpdate?
                    && r[0].msg.update.status == r[1].msg.update.status == Status(game.board)
                    && r[0].msg.update.squares == r[1].msg.update.squares == game.board
                    && r[0].msg.update.myMark == room.myMark
                    && r[1].msg.update.myMark == st.users[room.opponent].room.value.myMark
                    && (r[0].msg.update.isCurrentPlayer <==> game.current == room.myMark)
                    && (r[1].msg.update.isCurrentPlayer <==> game.current == r[1].msg.update.myMark)
                    && r[0].msg.update.opponentName == st.users[room.opponent].username
                    && r[1].msg.update.opponentName == st.users[sender].username)
  {
    match st.users[sender].room
    case None => [Outbound(sender, Error(ServerError))]
    case Some(room) =>
      var game := st.games[room.game];
      var opponent := st.users[room.opponent];
      match opponent.room
      case None => [Outbound(sender, Error(ServerError))]
      case Some(opponentRoom) =>
        var status := Status(game.board);
        [ Outbound(sender, GameUpdate(GameUpdateData(
            status, opponent.username, room.myMark, game.current == room.myMark, game.board))),
          Outbound(room.opponent, GameUpdate(GameUpdateData(
            status, st.users[sender].username, opponentRoom.myMark, game.current == opponentRoom.myMark, game.board))) ]
  }

  /**
   * `handlePlayTurn`. A rejected turn changes nothing and answers the sender
   * alone: `InvalidMessage` without a room, `NotYourTurn` when the game waits
   * for the other mark, `InvalidCoordinates` when the engine refuses the move;
   * a request with a room but no coordinates throws while destructuring and
   * answers nothing. An accepted turn updates the shared game and only it,
   * even when the opponent's room is gone and the sender is answered with a
   * server error instead of the two updates.
   */
  function HandlePlayTurn(st: State, sender: UserId, data: Option<Coordinates>): (r: Step)
    requires Valid(st) && sender in st.users
    ensures Valid(r.st)
    ensures r.st.users == st.users && r.st.queue == st.queue && r.st.nextGame == st.nextGame
    ensures !TurnAccepted(st, sender, data) ==>
              && r.st == st
              && |r.out| <= 1
              && forall i | 0 <= i < |r.out| :: r.out[i].to == sender && r.out[i].msg.Error?
    ensures st.users[sender].room.None? ==> r.out == [Outbound(sender, Error(InvalidMessage))]
    ensures st.users[sender].room.Some? && data.None? ==> r.out == []
    ensures st.users[sender].room.Some? && data.Some? &&
            st.games[st.users[sender].room.value.game].current != st.users[sender].room.value.myMark ==>
              r.out == [Outbound(sender, Error(NotYourTurn))]
    ensures st.users[sender].room.Some? && data.Some? &&
            st.games[st.users[sender].room.value.game].current == st.users[sender].room.value.myMark &&
            !TurnAccepted(st, sender, data) ==>
              r.out == [Outbound(sender, Error(InvalidCoordinates))]
    ensures TurnAccepted(st, sender, data) ==>
              var room := st.users[sender].room.value;
              var game := st.games[room.game];
              var turn := MarkEngine.PlayTurn(game, data.value.x, data.value.y).value;
              && r.st.games == st.games[room.game := turn.game]
              && r.out == UpdatePlayersAfterTurn(r.st, sender)
              && (st.users[room.opponent].room.None? ==> r.out == [Outbound(sender, Error(ServerError))])
              && (st.users[room.opponent].room.Some? ==>
                    |r.out| == 2 && r.out[0].to == sender && r.out[1].to == room.opponent &&
                    r.out[0].msg.GameUpdate? && r.out[0].msg.update.squares == turn.game.board)
  {
    match st.users[sender].room
    case None => Step(st, [Outbound(sender, Error(InvalidMessage))])
    case Some(room) =>
      match data
      case None => Step(st, [])
      case Some(c) =>
        var game := st.games[room.game];
        if game.current != room.myMark then Step(st, [Outbound(sender, Error(NotYourTurn))])
        else
          match MarkEngine.PlayTurn(game, c.x, c.y)
          case Failure(_) => Step(st, [Outbound(sender, Error(InvalidCoordinates))])
          case Success(turn) =>
            var st' := st.(games := st.games[room.game := turn.game]);
            Step(st', UpdatePlayersAfterTurn(st', sender))
  }

  // ---------------------------------------------------------------------------
  // Leaving, disconnecting, replaying

  /**
   * The room teardown shared by `handleLeaveGame` and
   * `handlePlayerDisconnection`: the opponent is told the sender disconnected
   * and both room fields are cleared.
   */
  function Teardown(st: State, sender: UserId): (r: Step)
    requires Valid(st) && sender in st.users
    ensures Valid(r.st)
    ensures r.st.queue == st.queue && r.st.games == st.games && r.st.nextGame == st.nextGame
    ensures SameUsers(st, r.st)
    ensures st.users[sender].room.None? ==> r == Step(st, [])
    ensures st.users[sender].room.Some? ==>
              var opponent := st.users[sender].room.value.opponent;
              && r.out == [Outbound(opponent, OpponentDisconnected)]
              && r.st.users[sender].room.None?
              && r.st.users[opponent].room.None?
              && OthersUntouched(st, r.st, sender, opponent)
  {
    match st.users[sender].room
    case None => Step(st, [])
    case Some(room) =>
      var st1 := SetRoom(st, sender, None);
      var st2 := SetRoom(st1, room.opponent, None);
      Step(st2, [Outbound(room.opponent, OpponentDisconnected)])
  }

  /**
   * `handleLeaveGame`: the room teardown; the queue, the games and every user
   * outside the room stay as they were.
   */
  function HandleLeaveGame(st: State, sender: UserId): (r: Step)
    requires Valid(st) && sender in st.users
    ensures Valid(r.st)
    ensures r.st.queue == st.queue && r.st.games == st.games
    ensures st.users[sender].room.None? ==> r.out == [] && r.st == st
    ensures st.users[sender].room.Some? ==>
              var opponent := st.users[sender].room.value.opponent;
              && r.out == [Outbound(opponent, OpponentDisconnected)]
              && sender in r.st.users && opponent in r.st.users
              && r.st.users[sender].room.None? && r.st.users[opponent].room.None?
  {
    Teardown(st, sender)
  }

  /** The first index of `id` in `q`, as `findIndex` reports it (`None` for -1). */
  function FindIndex(q: seq<UserId>, id: UserId): (r: Option<nat>)
    ensures r.Some? ==> r.value < |q| && q[r.value] == id && id !in q[..r.value]
    ensures r.None? ==> id !in q
  {
    if |q| == 0 then None
    else if q[0] == id then Some(0)
    else
      match FindIndex(q[1..], id)
      case None => None
      case Some(i) =>
        assert q[..i + 1] == [q[0]] + q[1..][..i];
        Some(i + 1)
  }

  /** `findIndex` followed by `splice(index, 1)`: only the first occurrence goes. */
  function RemoveFirst(q: seq<UserId>, id: UserId): (r: seq<UserId>)
    ensures id !in q ==> r == q
    ensures id in q ==> exists i | 0 <= i < |q| :: q[i] == id && id !in q[..i] && r == q[..i] + q[i + 1..]
    ensures multiset(r) == multiset(q) - multiset{id}
  {
    match FindIndex(q, id)
    case None => q
    case Some(i) =>
      assert q == q[..i] + [q[i]] + q[i + 1..];
      q[..i] + q[i + 1..]
  }

  /**
   * `handlePlayerDisconnection`: the same teardown as leaving, then the first
   * queue entry with the user's id, if any, is removed.
   */
  function HandlePlayerDisconnection(st: State, sender: UserId): (r: Step)
    requires Valid(st) && sender in st.users
    ensures Valid(r.st)
    ensures r.out == HandleLeaveGame(st, sender).out
    ensures r.st == HandleLeaveGame(st, sender).st.(queue := RemoveFirst(st.queue, sender))
  {
    var s := Teardown(st, sender);
    Step(s.st.(queue := RemoveFirst(s.st.queue, sender)), s.out)
  }

  /**
   * The opponent has asked for a replay too, judged after the sender's flag
   * is set (a user paired with itself agrees with itself).
   */
  predicate ReplayAgreed(st: State, sender: UserId)
    requires Valid(st) && sender in st.users && st.users[sender].room.Some?
  {
    var opponent := st.users[sender].room.value.opponent;
    opponent == sender ||
    (st.users[opponent].room.Some? && st.users[opponent].room.value.wantsReplay)
  }

  /**
   * `handleReplayGame`: the sender's flag is set; when the opponent's room
   * carries the flag too, a new game starts with the sender as X. No
   * game-over check, and no coin flip.
   */
  function HandleReplayGame(st: State, sender: UserId): (r: Step)
    requires Valid(st) && sender in st.users
    ensures Valid(r.st)
    ensures SameUsers(st, r.st) && GamesKept(st, r.st) && r.st.queue == st.queue
    ensures st.users[sender].room.None? ==> r == Step(st, [])
    ensures st.users[sender].room.Some? && !ReplayAgreed(st, sender) ==>
              && r.out == []
              && r.st.users[sender].room == Some(st.users[sender].room.value.(wantsReplay := true))
              && OthersUntouched(st, r.st, sender, sender)
              && r.st.games == st.games && r.st.nextGame == st.nextGame
    ensures st.users[sender].room.Some? && ReplayAgreed(st, sender) ==>
              var opponent := st.users[sender].room.value.opponent;
              var g := st.nextGame;
              && r.st.nextGame == g + 1 && r.st.games == st.games[g := NewGame()]
              && r.st.users[opponent].room == Some(Room(sender, O, g, false))
              && (opponent != sender ==> r.st.users[sender].room == Some(Room(opponent, X, g, false)))
              && OthersUntouched(st, r.st, sender, opponent)
              && r.out == [ Outbound(sender, StartUpdate(st.users[opponent].username, X, true)),
                            Outbound(opponent, StartUpdate(st.users[sender].username, O, false)) ]
  {
    match st.users[sender].room
    case None => Step(st, [])
    case Some(room) =>
      var st1 := SetRoom(st, sender, Some(room.(wantsReplay := true)));
      var opponentRoom := st1.users[room.opponent].room;
      if opponentRoom.Some? && opponentRoom.value.wantsReplay then InitializeGame(st1, sender, room.opponent)
      else Step(st1, [])
  }

  // ---------------------------------------------------------------------------
  // Dispatch

  /** `!data.type`: a missing or empty `type`. */
  predicate MissingType(msg: ClientMessage) {
    msg.kind.None? || msg.kind.value == ""
  }

  /**
   * The websocket `message` handler: a message without `type` is answered
   * `InvalidMessage`; a `type` naming no request is ignored (the switch has
   * no default); the four requests go to their handlers.
   */
  function OnMessage(st: State, sender: UserId, msg: ClientMessage, coin: nat -> bool): (r: Step)
    requires Valid(st) && sender in st.users
    ensures Valid(r.st)
    ensures MissingType(msg) ==> r == Step(st, [Outbound(sender, Error(InvalidMessage))])
    ensures !MissingType(msg) && ParseClientMessageType(msg.kind.value).None? ==> r == Step(st, [])
    ensures !MissingType(msg) && ParseClientMessageType(msg.kind.value) == Some(JoinQueue) ==>
              r == EnqueuePlayer(st, sender, coin)
    ensures !MissingType(msg) && ParseClientMessageType(msg.kind.value) == Some(Api.PlayTurn) ==>
              r == HandlePlayTurn(st, sender, msg.data)
    ensures !MissingType(msg) && ParseClientMessageType(msg.kind.value) == Some(LeaveGame) ==>
              r == HandleLeaveGame(st, sender)
    ensures !MissingType(msg) && ParseClientMessageType(msg.kind.value) == Some(ReplayGame) ==>
              r == HandleReplayGame(st, sender)
  {
    if MissingType(msg) then Step(st, [Outbound(sender, Error(InvalidMessage))])
    else
      match ParseClientMessageType(msg.kind.value)
      case None => Step(st, [])
      case Some(t) =>
        if t.JoinQueue? then EnqueuePlayer(st, sender, coin)
        else if t.PlayTurn? then HandlePlayTurn(st, sender, msg.data)
        else if t.LeaveGame? then HandleLeaveGame(st, sender)
        else HandleReplayGame(st, sender)
  }

  /**
   * The websocket `close` handler: the opponent, if any, is told and both
   * rooms are cleared, and one queue entry of the user is dropped.
   */
  function OnClose(st: State, sender: UserId): (r: Step)
    requires Valid(st) && sender in st.users
    ensures Valid(r.st)
    ensures multiset(r.st.queue) == multiset(st.queue) - multiset{sender}
    ensures st.users[sender].room.None? ==> r.out == []
    ensures st.users[sender].room.Some? ==>
              var opponent := st.users[sender].room.value.opponent;
              && r.out == [Outbound(opponent, OpponentDisconnected)]
              && sender in r.st.users && opponent in r.st.users
              && r.st.users[sender].room.None? && r.st.users[opponent].room.None?
  {
    HandlePlayerDisconnection(st, sender)
  }
}

=== FILE: matchmaker_properties.dfy ===
/**
 * Properties of the coordinator of backend/src/index.ts that relate several
 * events: FIFO pairing, the queue bound over every reachable state, how many
 * games a burst of joins creates, turn hand-over, replay consent, and the
 * quirks of joining twice and of disconnecting while queued twice.
 */
module MatchmakerProperties {
  import opened Wrappers
  import opened Grid
  import opened MarkEngine
  import opened Api
  import opened Matchmaker

  predicate NoDuplicates(q: seq<UserId>) {
    forall i, j | 0 <= i < j < |q| :: q[i] != q[j]
  }

  /** `a` and `b` sit in rooms naming each other over game `g`, `a` on `aMark`, no replay asked. */
  ghost predicate Paired(st: State, a: UserId, b: UserId, g: GameId, aMark: Mark) {
    && a in st.users && b in st.users && g in st.games
    && st.users[a].room == Some(Room(b, aMark, g, false))
    && st.users[b].room == Some(Room(a, aMark.Other(), g, false))
  }

  /**
   * Pair number `i` of a pairing run started at draw `k`: the users at queue
   * positions 2i and 2i+1 share the i-th new game, still empty; the one that
   * waited longer plays O exactly when draw k+i swapped them.
   */
  ghost predicate PairFormed(before: State, after: State, coin: nat -> bool, k: nat, i: nat)
    requires 2 * i + 1 < |before.queue|
  {
    var g := before.nextGame + i;
    && Paired(after, before.queue[2 * i], before.queue[2 * i + 1], g, if coin(k + i) then O else X)
    && after.games[g] == NewGame()
  }

  /** Pairing takes the queue two at a time from the front and starts one fresh game per pair. */
  lemma {:induction false} PairingPairsInOrder(st: State, coin: nat -> bool, k: nat)
    requires Valid(st) && NoDuplicates(st.queue)
    ensures forall i | 0 <= i < |st.queue| / 2 :: PairFormed(st, TryPairing(st, coin, k).st, coin, k, i)
    decreases |st.queue|
  {
    var q := st.queue;
    if |q| >= 2 {
      var start := PairFront(st, coin(k));
      var after := TryPairing(st, coin, k).st;
      PairingStep(st, coin, k);
      PairingPairsInOrder(start.st, coin, k + 1);
      FirstPair(st, coin, k);
      forall i | 1 <= i < |q| / 2
        ensures PairFormed(st, after, coin, k, i)
      {
        LaterPair(st, start.st, after, coin, k, i);
      }
    }
  }

  /** A pairing run is its first pair followed by the run over the rest of the queue. */
  lemma PairingStep(st: State, coin: nat -> bool, k: nat)
    requires Valid(st) && NoDuplicates(st.queue) && |st.queue| >= 2
    ensures var start := PairFront(st, coin(k));
      && NoDuplicates(start.st.queue)
      && start.st.queue == st.queue[2..] && start.st.nextGame == st.nextGame + 1
      && TryPairing(st, coin, k).st == TryPairing(start.st, coin, k + 1).st
  {
  }

  /** The front pair gets the first game, and the rest of the run leaves them alone. */
  lemma FirstPair(st: State, coin: nat -> bool, k: nat)
    requires Valid(st) && NoDuplicates(st.queue) && |st.queue| >= 2
    ensures PairFormed(st, TryPairing(st, coin, k).st, coin, k, 0)
  {
    var q := st.queue;
    var (p1, p2) := FrontPair(q, coin(k));
    var start := PairFront(st, coin(k));
    assert start == InitializeGame(st.(queue := q[2..]), p1, p2);
    var after := TryPairing(start.st, coin, k + 1).st;
    assert TryPairing(st, coin, k).st == after;
    assert Paired(start.st, q[0], q[1], st.nextGame, if coin(k) then O else X);
    TryPairingFrame(start.st, coin, k + 1);
    assert q[0] !in start.st.queue && q[1] !in start.st.queue;
  }

  /** Pair i of a run is pair i - 1 of the run that starts after the first pair. */
  lemma LaterPair(before: State, mid: State, after: State, coin: nat -> bool, k: nat, i: nat)
    requires 1 <= i && 2 * i + 1 < |before.queue|
    requires mid.queue == before.queue[2..] && mid.nextGame == before.nextGame + 1
    requires PairFormed(mid, after, coin, k + 1, i - 1)
    ensures PairFormed(before, after, coin, k, i)
  {
    var q := before.queue;
    assert mid.queue[2 * (i - 1)] == q[2 * i] && mid.queue[2 * (i - 1) + 1] == q[2 * i + 1];
    assert k + 1 + (i - 1) == k + i;
  }

  // ---------------------------------------------------------------------------
  // Reachable states

  /** The events the server reacts to. */
  datatype Event =
    | Connect(id: UserId, username: Option<string>, upgraded: bool)
    | Message(sender: UserId, msg: ClientMessage)
    | Close(sender: UserId)

  /**
   * One event, with `coin` the draws it may make. A connection id is a fresh
   * UUID and only connected users send messages, so events that break either
   * are dropped.
   */
  function Apply(st: State, e: Event, coin: nat -> bool): (r: Step)
    requires Valid(st)
    ensures Valid(r.st)
  {
    match e
    case Connect(id, username, upgraded) =>
      if id in st.users then Step(st, []) else Step(HandleTicTacToeRequest(st, id, username, upgraded).0, [])
    case Message(sender, msg) =>
      if sender in st.users then OnMessage(st, sender, msg, coin) else Step(st, [])
    case Close(sender) =>
      if sender in st.users then OnClose(st, sender) else Step(st, [])
  }

  /** The server after a sequence of events, one at a time; event number n draws from `coins(n)`. */
  function Serve(st: State, events: seq<Event>, coins: nat -> nat -> bool, n: nat): (r: State)
    requires Valid(st)
    ensures Valid(r)
    decreases |events|
  {
    if |events| == 0 then st else Serve(Apply(st, events[0], coins(n)).st, events[1..], coins, n + 1)
  }

  /** No event leaves more than one user waiting when at most one waited before. */
  lemma ApplyKeepsQueueShort(st: State, e: Event, coin: nat -> bool)
    requires Valid(st) && |st.queue| <= 1
    ensures |Apply(st, e, coin).st.queue| <= 1
  {
    match e
    case Connect(_, _, _) =>
    case Message(sender, msg) =>
      if sender in st.users && !MissingType(msg) {
        var t := ParseClientMessageType(msg.kind.value);
        if t == Some(JoinQueue) {
          EnqueueOnShortQueue(st, sender, coin);
        }
      }
    case Close(sender) =>
      if sender in st.users {
        var q := st.queue;
        assert |multiset(RemoveFirst(q, sender))| <= |multiset(q)|;
      }
  }

  /**
   * In every state the server reaches from start-up, all references resolve
   * and at most one user waits in the queue.
   */
  lemma {:induction false} ReachableStates(st: State, events: seq<Event>, coins: nat -> nat -> bool, n: nat)
    requires Valid(st) && |st.queue| <= 1
    ensures Valid(Serve(st, events, coins, n)) && |Serve(st, events, coins, n).queue| <= 1
    decreases |events|
  {
    if |events| > 0 {
      ApplyKeepsQueueShort(st, events[0], coins(n));
      ReachableStates(Apply(st, events[0], coins(n)).st, events[1..], coins, n + 1);
    }
  }

  lemma ReachableFromStartUp(events: seq<Event>, coins: nat -> nat -> bool)
    ensures Valid(Serve(Initial, events, coins, 0)) && |Serve(Initial, events, coins, 0).queue| <= 1
  {
    InitialValid();
    ReachableStates(Initial, events, coins, 0);
  }

  // ---------------------------------------------------------------------------
  // A burst of joins

  /** The listed users send `joinQueue` one after the other; join number n draws from `coins(n)`. */
  function JoinAll(st: State, ids: seq<UserId>, coins: nat -> nat -> bool, n: nat): (r: State)
    requires Valid(st)
    requires forall id | id in ids :: id in st.users
    ensures Valid(r) && r.users.Keys == st.users.Keys
    decreases |ids|
  {
    if |ids| == 0 then st
    else
      var next := EnqueuePlayer(st, ids[0], coins(n)).st;
      assert next.users.Keys == st.users.Keys;
      JoinAll(next, ids[1..], coins, n + 1)
  }

  /**
   * A burst of joins on a queue of at most one user: every join either waits
   * or completes a pair, so the users left waiting plus two per new game
   * account for everyone who waited or joined, and at most one waits after.
   */
  lemma {:induction false} JoinsFillRooms(st: State, ids: seq<UserId>, coins: nat -> nat -> bool, n0: nat)
    requires Valid(st) && |st.queue| <= 1
    requires forall id | id in ids :: id in st.users
    ensures var r := JoinAll(st, ids, coins, n0);
      && |r.queue| <= 1 && r.nextGame >= st.nextGame
      && |r.queue| + 2 * (r.nextGame - st.nextGame) == |st.queue| + |ids|
    decreases |ids|
  {
    if |ids| == 0 {
      assert JoinAll(st, ids, coins, n0) == st;
    } else {
      var next := EnqueuePlayer(st, ids[0], coins(n0)).st;
      JoinStep(st, ids, coins, n0);
      JoinsFillRooms(next, ids[1..], coins, n0 + 1);
    }
  }

  /** The first join of a burst, on a queue of at most one user. */
  lemma JoinStep(st: State, ids: seq<UserId>, coins: nat -> nat -> bool, n0: nat)
    requires Valid(st) && |st.queue| <= 1 && |ids| > 0
    requires forall id | id in ids :: id in st.users
    ensures var next := EnqueuePlayer(st, ids[0], coins(n0)).st;
      && Valid(next) && |next.queue| <= 1 && next.nextGame >= st.nextGame
      && |next.queue| + 2 * (next.nextGame - st.nextGame) == |st.queue| + 1
      && (forall id | id in ids[1..] :: id in next.users)
      && JoinAll(st, ids, coins, n0) == JoinAll(next, ids[1..], coins, n0 + 1)
  {
    EnqueueOnShortQueue(st, ids[0], coins(n0));
  }

  /**
   * N joins on a queue holding q users leave (q + N) mod 2 users waiting and
   * start (q + N) div 2 games.
   */
  lemma JoinsParity(st: State, ids: seq<UserId>, coins: nat -> nat -> bool)
    requires Valid(st) && |st.queue| <= 1
    requires forall id | id in ids :: id in st.users
    ensures |JoinAll(st, ids, coins, 0).queue| == (|st.queue| + |ids|) % 2
    ensures JoinAll(st, ids, coins, 0).nextGame == st.nextGame + (|st.queue| + |ids|) / 2
  {
    JoinsFillRooms(st, ids, coins, 0);
    var r := JoinAll(st, ids, coins, 0);
    SplitByTwo(|r.queue|, r.nextGame - st.nextGame, |st.queue| + |ids|);
  }

  /**
   * A remainder below two and a quotient that add up are the remainder and
   * quotient by two. This is the arithmetic step JoinsParity needs to go from
   * the counts to `%` and `/`.
   */
  lemma SplitByTwo(w: int, g: int, m: int)
    requires 0 <= w <= 1 && w + 2 * g == m
    ensures w == m % 2 && g == m / 2
  {
  }

  // ---------------------------------------------------------------------------
  // Turns

  /**
   * After an accepted turn in a properly paired room, both players see the
   * same board and status, the mover is told to wait and the opponent that
   * it is their turn; the room pair is unchanged.
   */
  lemma TurnPassesToOpponent(st: State, a: UserId, b: UserId, g: GameId, aMark: Mark, x: int, y: int)
    requires Valid(st) && a != b && Paired(st, a, b, g, aMark)
    requires TurnAccepted(st, a, Some(Coordinates(x, y)))
    ensures var r := HandlePlayTurn(st, a, Some(Coordinates(x, y)));
      && g in r.st.games
      && |r.out| == 2 && r.out[0].to == a && r.out[1].to == b
      && r.out[0].msg.GameUpdate? && r.out[1].msg.GameUpdate?
      && !r.out[0].msg.update.isCurrentPlayer && r.out[1].msg.update.isCurrentPlayer
      && r.out[0].msg.update.squares == r.out[1].msg.update.squares == r.st.games[g].board
      && r.out[0].msg.update.status == r.out[1].msg.update.status == Status(r.st.games[g].board)
      && r.st.games[g].board[x][y] == Some(aMark)
      && Paired(r.st, a, b, g, aMark)
  {
  }

  // ---------------------------------------------------------------------------
  // Replay

  /**
   * One replay request starts nothing and tells nobody; the second one, from
   * the opponent, starts exactly one fresh game with the second requester on
   * X. Nothing asks for the game to be over.
   */
  lemma ReplayNeedsBothPlayers(st: State, a: UserId, b: UserId, g: GameId, aMark: Mark)
    requires Valid(st) && a != b && Paired(st, a, b, g, aMark)
    ensures var r1 := HandleReplayGame(st, a);
      var r2 := HandleReplayGame(r1.st, b);
      && r1.out == [] && r1.st.games == st.games && r1.st.nextGame == st.nextGame
      && r2.st.nextGame == st.nextGame + 1
      && Paired(r2.st, b, a, st.nextGame, X)
      && r2.st.games[st.nextGame] == NewGame()
      && r2.out == [ Outbound(b, StartUpdate(st.users[a].username, X, true)),
                     Outbound(a, StartUpdate(st.users[b].username, O, false)) ]
  {
    var r1 := HandleReplayGame(st, a);
    assert !ReplayAgreed(st, a);
    assert r1.st.users[b] == st.users[b];
    assert ReplayAgreed(r1.st, b);
  }

  // ---------------------------------------------------------------------------
  // Queue quirks of the code as written

  /**
   * `joinQueue` does not check for duplicates: a user who joins twice on an
   * empty queue is paired with itself and ends in a room naming itself.
   */
  lemma JoiningTwicePairsWithSelf(st: State, u: UserId, coin: nat -> bool)
    requires Valid(st) && st.queue == [] && u in st.users
    ensures var s1 := EnqueuePlayer(st, u, coin).st;
      var s2 := EnqueuePlayer(s1, u, coin).st;
      && s1.queue == [u] && s1.users == st.users
      && s2.queue == [] && s2.users[u].room == Some(Room(u, O, st.nextGame, false))
  {
    var s1 := EnqueuePlayer(st, u, coin).st;
    assert s1 == st.(queue := [u]);
    var q := s1.(queue := [u, u]);
    var start := PairFront(q, coin(0));
    assert start == InitializeGame(q.(queue := []), u, u);
    assert EnqueuePlayer(s1, u, coin).st == TryPairing(start.st, coin, 1).st;
  }

  /** Disconnecting removes only the first queue entry of the user. */
  lemma DisconnectRemovesOneEntry(st: State, u: UserId)
    requires Valid(st) && u in st.users && st.users[u].room.None?
    requires st.queue == [u, u]
    ensures HandlePlayerDisconnection(st, u).st.queue == [u]
  {
    var r := RemoveFirst(st.queue, u);
    assert multiset(r) == multiset{u};
  }
}

=== FILE: player_engine.dfy ===
/**
 * The player-based tic-tac-toe engine of the local (same-screen) mode
 * (frontend/src/routes/local/tictactoe.ts). Cells hold the player who played
 * them; players get their ids from a counter shared by every `Player`; the
 * first mover is picked by a coin flip.
 */
module PlayerEngine {
  import opened Wrappers
  import opened Grid

  /**
   * A player object. Ids are never reused, so structural equality of two
   * players coincides with the object identity `===` of the source.
   */
  datatype Player = Player(id: nat, name: string)

  /** The engine's status enum, forfeits included although nothing produces them. */
  datatype GameStatus = InProgress | Player1Wins | Player2Wins | Player1Forfeits | Player2Forfeits | Draw

  datatype Game = Game(board: Board<Player>, player1: Player, player2: Player, current: Player)

  /** Why `playTurn` throws; the same three paths as the mark-based engine. */
  datatype MoveError = BoardIndexError | GameIsOver | InvalidPosition

  datatype Turn = Turn(game: Game, status: GameStatus)

  /**
   * The `Player` constructor: the static counter is incremented and its new
   * value becomes the id. Returns the player and the counter afterwards.
   */
  function NewPlayer(counter: nat, name: string): (r: (Player, nat))
    ensures r.0.id > counter && r.1 >= r.0.id
    ensures r.0.name == name
  {
    (Player(counter + 1, name), counter + 1)
  }

  /** `selectRandomPlayer`: `heads` stands for `Math.random() < 0.5`. */
  function SelectRandomPlayer(player1: Player, player2: Player, heads: bool): (p: Player)
    ensures p == player1 || p == player2
    ensures heads ==> p == player1
    ensures !heads ==> p == player2
  {
    if heads then player1 else player2
  }

  /**
   * The constructor: an empty board, two fresh players with ids above the
   * counter, and a first mover chosen by the coin. Returns the game and the
   * counter afterwards. The constructor's default names, "Player 1" and
   * "Player 2", are ordinary arguments here.
   */
  function NewGame(counter: nat, player1Name: string, player2Name: string, heads: bool): (r: (Game, nat))
    ensures var g := r.0;
      && (forall i, j | 0 <= i < 3 && 0 <= j < 3 :: g.board[i][j].None?)
      && g.player1.id != g.player2.id
      && counter < g.player1.id <= r.1 && counter < g.player2.id <= r.1
      && g.player1.name == player1Name && g.player2.name == player2Name
      && (g.current == g.player1 || g.current == g.player2)
      && (heads <==> g.current == g.player1)
  {
    var (p1, c1) := NewPlayer(counter, player1Name);
    var (p2, c2) := NewPlayer(c1, player2Name);
    (Game(EmptyBoard(), p1, p2, SelectRandomPlayer(p1, p2, heads)), c2)
  }

  /**
   * The `gameStatus` getter: the owner of the first complete line (rows,
   * columns, diagonals) wins, reported as player 1's win when that owner is
   * player 1 and as player 2's otherwise; with no line, a full board is a
   * draw and any other board is in progress. Forfeits are never reported.
   */
  function Status(g: Game): (s: GameStatus)
    ensures s != Player1Forfeits && s != Player2Forfeits
    ensures s == Player1Wins ==> HasLine(g.board, g.player1)
    ensures s == Player2Wins ==> exists p: Player :: p != g.player1 && HasLine(g.board, p)
    ensures s == Draw <==> NoLine(g.board) && Full(g.board)
    ensures s == InProgress <==> NoLine(g.board) && !Full(g.board)
    ensures forall p: Player | HasLine(g.board, p) && (forall q: Player | q != p :: !HasLine(g.board, q)) ::
              s == (if p == g.player1 then Player1Wins else Player2Wins)
  {
    WinnerMatchesLines(g.board);
    SoleOwnerWins(g.board);
    match Winner(g.board)
    case Some(p) => if p == g.player1 then Player1Wins else Player2Wins
    case None => if Full(g.board) then Draw else InProgress
  }

  function Opponent(g: Game): Player {
    if g.current == g.player1 then g.player2 else g.player1
  }

  /**
   * `playTurn(x, y)`: rejected without any change when `board[x]` does not
   * exist, when the game is over, or when (x, y) is off the board or taken;
   * otherwise the current player is written into (x, y), the other player
   * moves next and the new status is returned.
   */
  function PlayTurn(g: Game, x: int, y: int): (r: Result<Turn, MoveError>)
    ensures r.Success? <==> InRange(x) && InRange(y) && Status(g) == InProgress && g.board[x][y].None?
    ensures !InRange(x) ==> r == Failure(BoardIndexError)
    ensures InRange(x) && Status(g) != InProgress ==> r == Failure(GameIsOver)
    ensures InRange(x) && Status(g) == InProgress && (!InRange(y) || g.board[x][y].Some?) ==>
              r == Failure(InvalidPosition)
    ensures r.Success? ==>
              && r.value.game.board[x][y] == Some(g.current)
              && (forall i, j | 0 <= i < 3 && 0 <= j < 3 && (i != x || j != y) ::
                    r.value.game.board[i][j] == g.board[i][j])
              && r.value.game.player1 == g.player1 && r.value.game.player2 == g.player2
              && r.value.game.current == Opponent(g)
              && r.value.status == Status(r.value.game)
  {
    if !InRange(x) then Failure(BoardIndexError)
    else if Status(g) != InProgress then Failure(GameIsOver)
    else if !InRange(y) || g.board[x][y].Some? then Failure(InvalidPosition)
    else
      var g' := g.(board := Set(g.board, x, y, Some(g.current)), current := Opponent(g));
      Success(Turn(g', Status(g')))
  }

  /** A sequence of `playTurn` calls; rejected calls leave the game as it was. */
  function Run(g: Game, moves: seq<(int, int)>): Game
    decreases |moves|
  {
    if |moves| == 0 then g
    else
      var r := PlayTurn(g, moves[0].0, moves[0].1);
      Run(if r.Success? then r.value.game else g, moves[1..])
  }

  /**
   * What holds in every game reachable from the constructor: two distinct
   * players, one of them to move, only they on the board, the player not to
   * move ahead by zero or one cells, and never both owning a line.
   */
  ghost predicate Consistent(g: Game) {
    && g.player1 != g.player2
    && (g.current == g.player1 || g.current == g.player2)
    && (forall i, j | 0 <= i < 3 && 0 <= j < 3 :: g.board[i][j] in {None, Some(g.player1), Some(g.player2)})
    && Count(g.board, Opponent(g)) - Count(g.board, g.current) in {0, 1}
    && !(HasLine(g.board, g.player1) && HasLine(g.board, g.player2))
  }

  lemma NewGameConsistent(counter: nat, player1Name: string, player2Name: string, heads: bool)
    ensures Consistent(NewGame(counter, player1Name, player2Name, heads).0)
  {
    var g := NewGame(counter, player1Name, player2Name, heads).0;
    EmptyBoardCounts(g.player1);
    EmptyBoardCounts(g.player2);
    WinnerMatchesLines(g.board);
  }

  /** A line owner on a consistent board is one of the two players. */
  lemma LineOwnersArePlayers(g: Game, p: Player)
    requires Consistent(g)
    requires HasLine(g.board, p)
    ensures p == g.player1 || p == g.player2
  {
    var l :| ValidLine(l) && Completes(g.board, l, p);
    var c := CellOf(l, 0);
    assert g.board[c.0][c.1] == Some(p);
  }

  lemma PlayTurnKeepsConsistent(g: Game, x: int, y: int)
    requires Consistent(g)
    requires PlayTurn(g, x, y).Success?
    ensures Consistent(PlayTurn(g, x, y).value.game)
  {
    var m := g.current;
    var b' := Set(g.board, x, y, Some(m));
    var g' := PlayTurn(g, x, y).value.game;
    assert g'.board == b';
    CountAfterSet(g.board, x, y, Some(m), m);
    CountAfterSet(g.board, x, y, Some(m), Opponent(g));
    if HasLine(b', Opponent(g)) {
      WriteCompletesOnlyWriter(g.board, x, y, m, Opponent(g));
    }
  }

  lemma {:induction false} RunKeepsConsistent(g: Game, moves: seq<(int, int)>)
    requires Consistent(g)
    ensures Consistent(Run(g, moves))
    decreases |moves|
  {
    if |moves| > 0 {
      var r := PlayTurn(g, moves[0].0, moves[0].1);
      if r.Success? {
        PlayTurnKeepsConsistent(g, moves[0].0, moves[0].1);
      }
      RunKeepsConsistent(if r.Success? then r.value.game else g, moves[1..]);
    }
  }

  /**
   * In every game reachable from the constructor, a completed line is the
   * win of the player owning it: player 1 wins exactly when player 1 owns a
   * line, and likewise for player 2.
   */
  lemma ReachableWins(counter: nat, player1Name: string, player2Name: string, heads: bool, moves: seq<(int, int)>)
    ensures var g := Run(NewGame(counter, player1Name, player2Name, heads).0, moves);
      && (Status(g) == Player1Wins <==> HasLine(g.board, g.player1))
      && (Status(g) == Player2Wins <==> HasLine(g.board, g.player2))
  {
    var g0 := NewGame(counter, player1Name, player2Name, heads).0;
    NewGameConsistent(counter, player1Name, player2Name, heads);
    RunKeepsConsistent(g0, moves);
    var g := Run(g0, moves);
    if Status(g) == Player2Wins {
      var p: Player :| p != g.player1 && HasLine(g.board, p);
      LineOwnersArePlayers(g, p);
    }
  }
}

=== FILE: registration.dfy ===
/**
 * The registration counter (backend/src/auth/auth.controllers.ts over the
 * store of backend/src/utils/store.ts): each registration takes the next id
 * from a counter and adds a new user record to the store's set.
 *
 * The set holds objects, so every new record is a new element. Here records
 * are values, and the counter invariant (every stored id is below the
 * counter) is what makes each new record distinct from the stored ones.
 */
module Registration {
  datatype UserRecord = UserRecord(userId: int, name: string)

  /** The store: registered users, the (unused here) queue and the counter. */
  datatype Store = Store(users: set<UserRecord>, queue: seq<UserRecord>, numberOfUsers: int)

  /** The store at start-up: no users, an empty queue, the counter at 0. */
  const Initial: Store := Store({}, [], 0)

  /** Every id handed out so far is below the counter, and there is one record per id. */
  ghost predicate Counted(s: Store) {
    && s.numberOfUsers >= 0
    && |s.users| == s.numberOfUsers
    && forall u | u in s.users :: 0 <= u.userId < s.numberOfUsers
  }

  /** `registerUser`: the record takes the counter's value as id, then the counter moves on. */
  function RegisterUser(s: Store, name: string): (r: (Store, UserRecord))
    ensures r.1.userId == s.numberOfUsers && r.1.name == name
    ensures r.0.numberOfUsers == s.numberOfUsers + 1
    ensures r.0.users == s.users + {r.1} && r.0.queue == s.queue
  {
    var user := UserRecord(s.numberOfUsers, name);
    (Store(s.users + {user}, s.queue, s.numberOfUsers + 1), user)
  }

  lemma InitialCounted()
    ensures Counted(Initial)
  {
  }

  /** A registration keeps the counter invariant and grows the set by exactly one record. */
  lemma RegisterKeepsCounted(s: Store, name: string)
    requires Counted(s)
    ensures var (s', user) := RegisterUser(s, name);
      && Counted(s')
      && user !in s.users
      && |s'.users| == |s.users| + 1
  {
    var (s', user) := RegisterUser(s, name);
    assert user !in s.users;
  }

  /** Registering the names one after the other; the records are returned in order. */
  function RegisterAll(s: Store, names: seq<string>): (r: (Store, seq<UserRecord>))
    ensures |r.1| == |names|
    ensures r.0.numberOfUsers == s.numberOfUsers + |names|
    decreases |names|
  {
    if |names| == 0 then (s, [])
    else
      var (s1, user) := RegisterUser(s, names[0]);
      var (s2, rest) := RegisterAll(s1, names[1..]);
      (s2, [user] + rest)
  }

  /**
   * From a store that keeps the counter invariant, registration i gets the
   * counter's value plus i with its own name, and the set gains exactly the
   * new records.
   */
  lemma {:induction false} RegisterAllFrom(s: Store, names: seq<string>)
    requires Counted(s)
    ensures var (s', users) := RegisterAll(s, names);
      && Counted(s')
      && (forall i | 0 <= i < |names| :: users[i] == UserRecord(s.numberOfUsers + i, names[i]))
      && s'.users == s.users + (set u | u in users)
    decreases |names|
  {
    if |names| > 0 {
      var (s1, user) := RegisterUser(s, names[0]);
      RegisterKeepsCounted(s, names[0]);
      RegisterAllFrom(s1, names[1..]);
      var (s2, rest) := RegisterAll(s1, names[1..]);
      assert RegisterAll(s, names) == (s2, [user] + rest);
      RecordsShift(s.numberOfUsers, names, user, rest);
      SetOfCons(user, rest);
    }
  }

  /** The records after the first are numbered from one further on. */
  lemma RecordsShift(c: int, names: seq<string>, user: UserRecord, rest: seq<UserRecord>)
    requires |names| > 0 && |rest| == |names| - 1
    requires user == UserRecord(c, names[0])
    requires forall i | 0 <= i < |rest| :: rest[i] == UserRecord(c + 1 + i, names[1..][i])
    ensures forall i | 0 <= i < |names| :: ([user] + rest)[i] == UserRecord(c + i, names[i])
  {
    forall i | 0 <= i < |names|
      ensures ([user] + rest)[i] == UserRecord(c + i, names[i])
    {
      if i > 0 {
        assert ([user] + rest)[i] == rest[i - 1];
      }
    }
  }

  lemma SetOfCons(user: UserRecord, rest: seq<UserRecord>)
    ensures (set u | u in [user] + rest) == {user} + (set u | u in rest)
  {
    assert forall x :: x in [user] + rest <==> x == user || x in rest;
  }

  /** Registrations from start-up hand out 0, 1, 2, … and the set holds exactly those records. */
  lemma RegistrationsFromStartUp(names: seq<string>)
    ensures var (s, users) := RegisterAll(Initial, names);
      && s.numberOfUsers == |names| == |s.users|
      && (forall i | 0 <= i < |names| :: users[i].userId == i && users[i].name == names[i])
      && (forall i, j | 0 <= i < j < |names| :: users[i].userId < users[j].userId)
  {
    InitialCounted();
    RegisterAllFrom(Initial, names);
  }
}

=== FILE: wrappers.dfy ===
/** Failure-compatible wrappers shared by every module of the model. */
module Wrappers {

  /** A value that may be absent: JavaScript's `null` / `undefined` / missing key. */
  datatype Option<+T> = None | Some(value: T)

  /** The outcome of an operation that either succeeds or throws. */
  datatype Result<+R, +E> = Success(value: R) | Failure(error: E)
}
